=== FILE: README.md ===
# Taxami — a Dafny model of the web app's logic

Taxami is a Next.js web app for Italian tax questions. This project models
the parts of it that hold logic of their own, as pure Dafny functions over
immutable values, and proves what they promise:

- **the tax simulator** (`tax.dfy`, module `TaxEngine`). It has the ATECO
  coefficient table, the three-band IRPEF scale and the two INPS formulas.
  It computes the flat-rate ("forfettario") and standard ("ordinario") regimes
  and picks the regime with the higher net income. Money is `real`.
- **the article feed** (`articles.dfy`, `keywords.dfy`). Each captured RSS item
  or Atom entry gets its field defaults and cleaned text, then a category by
  first-match keyword search. The articles of all feeds are then merged,
  sorted newest first and cut to 30.
- **the demo chat page** (`chat.dfy`). A fixed-priority keyword router picks
  one of five canned replies. The page's message list only ever grows by a
  question followed by its reply.
- **the account routes** (`store.dfy`, `auth.dfy`, `profile.dfy`,
  `telegram.dfy`, `questions.dfy`). Each route is a function from the tables
  (users, password resets, questions) to a status, a reply body and the next
  tables. The routes are registration, forgotten and reset password, the
  fiscal profile, Telegram linking and asking a question. Key columns stay
  unique throughout.
- **the string and number built-ins** these rely on (`text.dfy`,
  `numbers.dfy`): `trim`, `toLowerCase`, `includes`, global replace, tag
  stripping, `String(n)`, `parseInt` and `Number`.

Some things outside the app are parameters rather than part of the model:

- hashing, the random reset token and the clock;
- the signed-in user's id (the session);
- the premium-list file;
- the configured API keys, the web search and the two AI providers;
- a new user's id, which is required to be one no row holds yet.

## Model

| member | source | states |
|---|---|---|
| TaxEngine.Coefficient | src/app/simulatore/page.tsx:6-16 | each of the nine categories has a coefficient strictly between 0 and 1, one of 0.40/0.54/0.62/0.67/0.78/0.86; the default category ("servizi") has 0.78 |
| TaxEngine.Irpef | src/app/simulatore/page.tsx:20-33 | the tax is 0 for a base ≤ 0, and between 23% and 43% of any non-negative base |
| TaxEngine.IrpefIsMarginalSum | src/app/simulatore/page.tsx:20-33 | the page's sequential subtraction equals the band-by-band marginal sum over the 23/35/43% scale |
| TaxEngine.IrpefBoundaryValues | src/app/simulatore/page.tsx:20-33 | the tax is 6440 at 28000 (23% band only), 14140 at 50000 and 18440 at 60000 |
| TaxEngine.IrpefMarginalRates | src/app/simulatore/page.tsx:20-33 | between two non-negative bases the tax grows by at least 23% and at most 43% of the difference |
| TaxEngine.IrpefMonotone | src/app/simulatore/page.tsx:20-33 | a larger base never pays less tax |
| TaxEngine.Inps | src/app/simulatore/page.tsx:35-38 | the separate scheme charges 26.07% of the base; the artisans' scheme charges the larger of 4200 and 24%, so never less than 4200 |
| TaxEngine.InpsMonotone | src/app/simulatore/page.tsx:35-38 | contributions never fall as the base grows, under either scheme |
| TaxEngine.CalcForfetario | src/app/simulatore/page.tsx:40-47 | base = revenue × coefficient; the fiscal base is never negative; tax = fiscal base × rate; total = tax + contributions; net + total = revenue |
| TaxEngine.CalcOrdinario | src/app/simulatore/page.tsx:49-56 | base = max(0, revenue − costs); the fiscal base is never negative; tax = IRPEF of the fiscal base; total = tax + contributions; net + total = revenue |
| TaxEngine.ForfetarioRateMonotone | src/app/simulatore/page.tsx:43-46 | a higher substitute rate, all else fixed, never raises the flat-rate net income (so 15% never beats 5%) |
| TaxEngine.ForfetarioSeparataNettoNonNegative | src/app/simulatore/page.tsx:40-47 | under the separate scheme, with coefficient and rate between 0 and 1, the flat-rate net income is never negative |
| TaxEngine.ForfetarioNettoCanBeNegative | src/app/simulatore/page.tsx:35-47 | the 4200 floor makes the flat-rate net income −3200 on 1000 of revenue: net is not clamped in the calculation |
| TaxEngine.OrdinarioNettoCanBeNegative | src/app/simulatore/page.tsx:49-56 | likewise the standard regime's net income is −3200 on 1000 of revenue under the artisans' scheme |
| TaxEngine.OrdinarioBurdenMonotone | src/app/simulatore/page.tsx:49-56 | the standard regime's total burden never falls as its taxable income grows |
| TaxEngine.OrdinarioCostsMonotone | src/app/simulatore/page.tsx:49-56 | more deductible costs never lower the standard-regime net income |
| TaxEngine.ForfetarioWorkedExample | src/app/simulatore/page.tsx:40-47 | 50000 at coefficient 0.78, 15%, separate scheme: contributions 10167.3, tax 4324.905, net 35507.795 |
| TaxEngine.OrdinarioWorkedExample | src/app/simulatore/page.tsx:49-56 | 50000 revenue, 15000 costs, artisans' scheme: contributions 8400, tax 6118, net 35482 |
| TaxEngine.Conviene | src/app/simulatore/page.tsx:157-159 | the flat rate is recommended exactly when its net income is strictly higher (a tie goes to "ordinario"); the recommended net is the larger one; the saving is the non-negative difference |
| TaxEngine.Simulate | src/app/simulatore/page.tsx:146-155 | results exist exactly when they were requested and the coerced revenue (non-numeric → 0) is positive; both regimes get the same INPS scheme and each satisfies the accounting identity |
| Keywords.HasKeyword | src/app/api/articles/route.ts:24-28 | true exactly when some keyword of the list occurs in the text |
| Keywords.FirstMatch | src/app/api/articles/route.ts:23-29 | finds the first rule, in table order, with a keyword in the text; none exactly when no rule matches |
| Keywords.Classify | src/app/api/articles/route.ts:21-31 | the fallback when no rule matches, otherwise the key of a matching rule |
| Keywords.FirstMatchUnique | src/app/api/articles/route.ts:23-29 | the first matching rule is unique |
| Articles.InferCategory | src/app/api/articles/route.ts:21-31 | "altro" exactly when no category keyword occurs in lower(title + " " + description); otherwise the first matching category in table order; always one of the eight keys or "altro" |
| Articles.CategoryNamesDistinct | src/app/api/articles/route.ts:10-19 | the eight category keys are distinct and none is "altro" |
| Articles.CategoryRuleMatched | src/app/api/articles/route.ts:21-31 | a category is returned only if one of its own keywords occurs in the text |
| Articles.IvaOnlyThroughLongForm | src/app/api/articles/route.ts:12-25 | since the text is lower-cased and "IVA" is not, category IVA is reached only through "imposta sul valore aggiunto" |
| Articles.SocietaOnlyThroughLowerCaseKeywords | src/app/api/articles/route.ts:15-25 | "SRL" and "SPA" never match, so "società" is reached only through "società" or "societario" |
| Articles.CleanTitle | src/app/api/articles/route.ts:49 | decoding `&amp;` never introduces a '<'; a title without `&amp;` is the trimmed capture; each `&amp;` becomes `&` (Articles.TitleDecodesAmp, Text.ReplaceAllAt) |
| Articles.CleanDescription | src/app/api/articles/route.ts:52 | a cleaned description never contains '<'; one without tags, `&nbsp;` or `&amp;` is the trimmed capture; tags go before entities and each entity is decoded once (Articles.DescriptionDecodesOnce, Articles.DescriptionStripsThenDecodes) |
| Articles.TitleDecodesAmp | src/app/api/articles/route.ts:49 | a title holding one `&amp;` and no other ampersand, without surrounding whitespace, is cleaned to the same text with `&` in its place ("A &amp; B" becomes "A & B") |
| Articles.DescriptionDecodesOnce | src/app/api/articles/route.ts:52 | `&nbsp;` is replaced before `&amp;`, so "&amp;nbsp;" is cleaned to "&nbsp;", not to a space |
| Articles.DescriptionStripsThenDecodes | src/app/api/articles/route.ts:52 | tags are stripped before `&nbsp;` is decoded: "<p>a&nbsp;b</p>" is cleaned to "a b" |
| Articles.ToArticle | src/app/api/articles/route.ts:49-56 | a missing title becomes "No Title", a missing link "#", a missing date the clock reading taken as that item is read; an invalid date aborts; the article carries the feed's source and the inferred category |
| Articles.ToArticles | src/app/api/articles/route.ts:42-57 | one article per item, in order, unless some item's date is invalid |
| Articles.ParseFeed | src/app/api/articles/route.ts:33-85 | exactly one article per item and entry, all RSS items before all Atom entries, each tagged with the feed's source; nothing when any date is invalid |
| Articles.HostnameOfAddress | src/app/api/articles/route.ts:98 | `new URL("https://" + host + path).hostname` is host, for a host without '/' and a path empty or starting with '/' |
| Articles.FeedHostsOfAddresses | src/app/api/articles/route.ts:4-8 | the host names the sources come from are those of the three feed addresses, in order |
| Articles.SourceNames | src/app/api/articles/route.ts:98 | each feed's source is its host name without the leading "www." |
| Articles.SourceNameOfWww | src/app/api/articles/route.ts:98 | removing the first "www." from "www." + rest leaves rest |
| Articles.FeedArticles | src/app/api/articles/route.ts:93-96 | a failed fetch contributes no articles |
| Articles.FeedArticlesParsed | src/app/api/articles/route.ts:97-102 | a fetched feed contributes exactly its parsed articles, and none when parsing it aborts |
| Articles.AllArticlesOne | src/app/api/articles/route.ts:88-99 | a single fetch contributes exactly its own articles; with AllArticlesAppend this pins the merged list down as the concatenation of the feeds' contributions |
| Articles.AllArticlesAppend | src/app/api/articles/route.ts:88-99 | the merged list splits at any feed boundary: feeds contribute independently, in feed order |
| Articles.FailedFeedIsSkipped | src/app/api/articles/route.ts:90-103 | a failed feed, wherever it stands, contributes nothing, and the feeds before and after it contribute exactly their own articles, in order |
| Articles.FailedHeadSkipped | src/app/api/articles/route.ts:93-96 | a failing first feed is the same as no first feed |
| Articles.InsertByDate | src/app/api/articles/route.ts:105 | inserting into a newest-first list keeps it newest-first and adds exactly that article |
| Articles.SortNewestFirst | src/app/api/articles/route.ts:105 | the sort orders by descending date and is a permutation of its input |
| Articles.LatestArticles | src/app/api/articles/route.ts:87-106 | the result is newest-first, has min(30, n) articles drawn from the merge, and no article left out is newer than one kept |
| Articles.PrefixIsNewest | src/app/api/articles/route.ts:106 | a prefix of a newest-first list is newest-first, and every kept article is at least as new as every dropped one |
| Articles.KeptNotOlder | src/app/api/articles/route.ts:106 | an article before the cut is never older than one after it |
| Articles.LaterReadUndatedFirst | src/app/api/articles/route.ts:87-106 | each undated item carries the clock reading taken when it is read; with the feeds read one after another, an undated item of the second feed read later than one of the first is listed before it, each tagged with its own feed's source |
| Chat.Route | src/app/chat/page.tsx:24-31 | the reply is the default exactly when no keyword group matches the lower-cased text, otherwise that of the first matching group |
| Chat.Dispatch | src/app/chat/page.tsx:26-30 | the if-chain on the lower-cased text agrees with the first-match rule over the four groups |
| Chat.RouteGroups | src/app/chat/page.tsx:26-30 | the groups are forfetario/forfettario, iva/scadenz, detrar/medic and srl, in that order |
| Chat.DispatchByKeywords | src/app/chat/page.tsx:26-30 | two texts that contain the same router keywords get the same reply |
| Chat.GetResponse | src/app/chat/page.tsx:16-31 | the answer is always one of the five fixed reply texts |
| Chat.EarliestGroupWins | src/app/chat/page.tsx:26-30 | text hitting group i gets the reply of group i or of an earlier one |
| Chat.RouteIgnoresCase | src/app/chat/page.tsx:25 | lower-casing the question first does not change the reply |
| Chat.RouteIgnoresSurroundingSpace | src/app/chat/page.tsx:41-42 | the reply to the trimmed text shown in the list is the reply to the text as sent |
| Chat.Send | src/app/chat/page.tsx:39-45 | blank text changes nothing; otherwise exactly the trimmed user text and then its reply are appended, and the input is cleared |
| Chat.Step | src/app/chat/page.tsx:39-45 | no event removes a message; editing changes only the input box |
| Chat.StartWellFormed | src/app/chat/page.tsx:34-36 | the page starts with the greeting alone, well formed, with suggestions shown |
| Chat.TranscriptOdd | src/app/chat/page.tsx:34-43 | a well-formed list has an odd length and starts with the greeting |
| Chat.TranscriptAlternates | src/app/chat/page.tsx:41-43 | messages alternate assistant/user by position, and each user message is followed by the reply routed from it |
| Chat.AppendExchange | src/app/chat/page.tsx:43 | appending a question and its reply keeps the list well formed |
| Chat.SendWellFormed | src/app/chat/page.tsx:39-45 | `send` keeps the list well formed |
| Chat.StepWellFormed | src/app/chat/page.tsx:39-45 | every user event keeps the list well formed |
| Chat.RunWellFormed | src/app/chat/page.tsx:33-45 | any sequence of events from a well-formed page gives a well-formed page |
| Chat.RunExtends | src/app/chat/page.tsx:43 | the message list only grows: the old list is a prefix of the new one |
| Chat.SuggestionsNeverReturn | src/app/chat/page.tsx:75 | once hidden, the suggestions never come back |
| Chat.FirstQuestionHidesSuggestions | src/app/chat/page.tsx:75 | the first non-blank question leaves three messages and hides the suggestions |
| Text.Trim | src/app/chat/page.tsx:40-41 | empty exactly for all-whitespace text; otherwise starts and ends with non-whitespace and is a contiguous slice of the input with only whitespace cut off |
| Text.TrimIdempotent | src/app/chat/page.tsx:40-41 | trimming twice is trimming once |
| Text.ToLower | src/app/api/articles/route.ts:22 | same length, each letter lowered, no capital left |
| Text.UpperNeverInLowered | src/app/api/articles/route.ts:22-25 | a pattern with a capital letter never occurs in lower-cased text |
| Text.TrimLower | src/app/chat/page.tsx:25-41 | trimming and lower-casing commute |
| Text.ContainsTrimmed | src/app/chat/page.tsx:25-41 | a keyword without whitespace occurs in the trimmed text exactly when it occurs in the text |
| Text.ContainsIff | src/app/api/articles/route.ts:25 | `includes` is true exactly when the pattern occurs at some position |
| Text.ReplaceAll | src/app/api/articles/route.ts:49 | text without the pattern is unchanged; no character appears that was in neither the text nor the replacement; where the pattern first occurs is stated by Text.ReplaceAllAt |
| Text.ReplaceAllAt | src/app/api/articles/route.ts:49 | at the first occurrence of a non-empty pattern, the text before it is kept, the occurrence becomes the replacement, and the rest is replaced in turn |
| Text.ReplaceFirst | src/app/api/articles/route.ts:98 | text without the pattern is unchanged; where the pattern first occurs is stated by Text.ReplaceFirstAt |
| Text.ReplaceFirstAt | src/app/api/articles/route.ts:98 | only the first occurrence of a non-empty pattern is replaced; the text before and after it is kept |
| Text.StripTags | src/app/api/articles/route.ts:52 | the result holds no '<', text without '<' is unchanged, and no new characters appear; what happens at a tag is stated by Text.StripTagsTag and Text.StripTagsOpen |
| Text.StripTagsTag | src/app/api/articles/route.ts:52 | a tag from `<` up to the next `>` is removed with its text; what precedes it is kept and what follows is stripped in turn |
| Text.StripTagsOpen | src/app/api/articles/route.ts:52 | a `<` with no `>` after it removes the rest of the text |
| Numbers.ShowNatValue | src/app/api/user/link-telegram/route.ts:36 | the decimal digits written for n read back as n |
| Numbers.ParseInt | src/app/api/user/fiscal-profile/route.ts:32 | `parseInt` with no radix: after leading whitespace and an optional sign, a `0x`/`0X` prefix selects hexadecimal; NaN exactly when no digit of the chosen base follows; a negative result comes from a leading '-' |
| Numbers.HexPrefixRead | src/app/api/user/fiscal-profile/route.ts:32 | `parseInt("0x7E9")` is 2025: the `0x` prefix makes the digits hexadecimal |
| Numbers.HexPrefixAlone | src/app/api/user/fiscal-profile/route.ts:32 | `parseInt("0x")` is NaN: a hexadecimal prefix with no digit after it |
| Numbers.ParseIntStopsAtNonDigit | src/app/api/user/fiscal-profile/route.ts:32 | `parseInt` reads the digits of n followed by any non-digit as n, except an `x` or `X` after a lone 0, which starts a hexadecimal numeral |
| Numbers.ParseIntShowInt | src/app/api/user/fiscal-profile/route.ts:32 | `parseInt(String(i))` is i for every integer, in exact arithmetic |
| Numbers.NumberOf | src/app/api/user/link-telegram/route.ts:35-36 | blank text is 0; any other accepted text is an optional sign and digits |
| Numbers.NumberOfShowInt | src/app/api/user/link-telegram/route.ts:35-36 | `Number(String(i))` is i for every integer, in exact arithmetic |
| Store.Find | src/app/api/auth/register/route.ts:13 | the first row carrying the key, and nothing exactly when no row does |
| Store.FindUnique | src/app/api/auth/register/route.ts:13 | with unique key columns the lookup finds the one row with the key |
| Store.UpdateKeepsUnique | src/app/api/user/link-telegram/route.ts:44-50 | replacing a row without taking another row's keys keeps the key columns unique |
| Store.AppendKeepsUnique | src/app/api/auth/register/route.ts:18-21 | adding a row with a new id and email and no Telegram id keeps the key columns unique |
| Auth.Register | src/app/api/auth/register/route.ts:5-23 | 400 exactly when email or password is missing; 409 exactly when the email is registered, with nothing written; otherwise exactly one row is added with the hashed password, and only its id, name and email are returned with 201 |
| Auth.RegisterKeepsUnique | src/app/api/auth/register/route.ts:13-21 | registration keeps ids and emails unique |
| Auth.RegisterTwiceConflicts | src/app/api/auth/register/route.ts:13-16 | registering the same email a second time is refused with 409 |
| Auth.ForgotPassword | src/app/api/auth/forgot-password/route.ts:5-29 | a missing email is 400 with nothing written; an unknown email writes nothing; a known one adds exactly one record expiring one hour (3600000 ms) after now; the reply is the same message for both |
| Auth.ForgotPasswordHidesAccounts | src/app/api/auth/forgot-password/route.ts:13-29 | status and body do not depend on whether the email belongs to an account |
| Auth.ForgotPasswordKeepsRecords | src/app/api/auth/forgot-password/route.ts:21-23 | earlier reset records are never removed or changed |
| Auth.FirstLive | src/app/api/auth/reset-password/route.ts:16-18 | a record with the token that expires strictly after now; none exactly when no such record exists |
| Auth.Purge | src/app/api/auth/reset-password/route.ts:31 | every record of the email is removed and every record of another email is kept |
| Auth.ResetPassword | src/app/api/auth/reset-password/route.ts:5-33 | a missing token or password is 400, then a password shorter than 6; no live record is 400; success requires a live record, sets the owner's password to the hash and deletes all records of that email; 500 exactly when the live record's email has no user row; every failure writes nothing |
| Auth.ResetPasswordKeepsUnique | src/app/api/auth/reset-password/route.ts:24-31 | a reset keeps the key columns unique |
| Auth.ResetTokenSingleUse | src/app/api/auth/reset-password/route.ts:16-31 | after a successful reset the same token is refused, at any later time |
| Auth.ResetPasswordTouchesOneUser | src/app/api/auth/reset-password/route.ts:24-28 | each row keeps its email and either stays as it was or gets only the new password hash |
| Auth.ForgotThenReset | src/app/api/auth/forgot-password/route.ts:18-23 | a token issued at time t resets the account's password at any time before t + 3600000 and is refused from then on |
| FiscalProfile.Get | src/app/api/user/fiscal-profile/route.ts:6-17 | 401 without a session; `{}` for an unknown user; otherwise exactly the five profile columns; nothing is written |
| FiscalProfile.Write | src/app/api/user/fiscal-profile/route.ts:29-33 | a field left out keeps the column; null writes null; a string, the empty one included, is written |
| FiscalProfile.WriteYear | src/app/api/user/fiscal-profile/route.ts:32 | a year left out is kept; null and "" become null; other text is stored as its `parseInt`, and NaN cannot be stored |
| FiscalProfile.Merge | src/app/api/user/fiscal-profile/route.ts:26-34 | each of the five columns follows its field, and no column outside the profile changes |
| FiscalProfile.Put | src/app/api/user/fiscal-profile/route.ts:19-38 | 401 exactly without a session; 500 exactly when the session's row is missing or the year cannot be stored, and then nothing is written; otherwise only that row is replaced by the merge and its profile returned |
| FiscalProfile.PutWritesPresentFields | src/app/api/user/fiscal-profile/route.ts:26-34 | for a signed-in user with a row and a storable year, the update succeeds and each column is the sent value when the field is present and the old value when it is absent |
| FiscalProfile.FormRoundTrip | src/components/FiscalProfileForm.tsx:31-51 | saving the profile form as loaded keeps the year and every non-null column; a null text column comes back as the empty string, since the form shows it as `''` |
| FiscalProfile.PutTouchesOnlyProfile | src/app/api/user/fiscal-profile/route.ts:26-34 | no other user's row changes, no account column changes, and the other tables are untouched |
| FiscalProfile.PutKeepsUnique | src/app/api/user/fiscal-profile/route.ts:26-34 | an update keeps the key columns unique |
| FiscalProfile.PutThenGet | src/app/api/user/fiscal-profile/route.ts:11-38 | what a successful update returns is what the next read returns |
| FiscalProfile.YearRoundTrip | src/app/api/user/fiscal-profile/route.ts:32 | a year sent as its digits is stored as that year |
| FiscalProfile.MergeEchoIsNoop | src/app/api/user/fiscal-profile/route.ts:26-34 | sending a row's own profile back changes nothing |
| FiscalProfile.PutOfEchoIsNoop | src/app/api/user/fiscal-profile/route.ts:19-38 | a client that sends back the profile `GET` returned, nulls as nulls and the year as its decimal digits, leaves the tables unchanged |
| FiscalProfile.EmptyStringIsWritten | src/app/api/user/fiscal-profile/route.ts:29-33 | empty strings are written, not skipped; in the year column they become null |
| LinkTelegram.IsPremium | src/app/api/user/link-telegram/route.ts:29-41 | only a parsed array or object can make an id premium; an array does exactly when one of its elements is the id's text or a number equal to `Number(id)`; an object does exactly when its entry under the id's text, or under `Number(id)` written back as a key, has a truthy `active`, for every id text |
| LinkTelegram.NumericIdInArray | src/app/api/user/link-telegram/route.ts:34-35 | an array list holding the id as a number makes its decimal spelling premium |
| LinkTelegram.StringIdInArray | src/app/api/user/link-telegram/route.ts:34-35 | an array list holding the id as a string makes that id premium |
| LinkTelegram.NoListNoPremium | src/app/api/user/link-telegram/route.ts:29-41 | a missing or unreadable list makes nobody premium |
| LinkTelegram.ActiveEntryIsPremium | src/app/api/user/link-telegram/route.ts:36 | an object list whose entry under the decimal spelling of a number has a truthy `active` makes the id premium |
| LinkTelegram.NumberKeyEntryIsPremium | src/app/api/user/link-telegram/route.ts:36 | any id text that `Number()` reads as n, such as "0123" or "+5", is premium when the entry under n's decimal key has a truthy `active` |
| LinkTelegram.InactiveEntryIsNot | src/app/api/user/link-telegram/route.ts:36 | an object list whose entries have no truthy `active` makes no id premium |
| LinkTelegram.NewPlan | src/app/api/user/link-telegram/route.ts:48 | the plan becomes "premium" when the id is premium and is otherwise left as it was |
| LinkTelegram.Attach | src/app/api/user/link-telegram/route.ts:22-50 | 409 exactly when another account holds the id; 500 exactly when the signed-in row is missing, with nothing written; otherwise the signed-in row gets the id and the plan update |
| LinkTelegram.Link | src/app/api/user/link-telegram/route.ts:9-58 | 401 exactly without a session; 400 exactly for a missing or blank id; 409 exactly when another account holds the trimmed id; 500 exactly when the signed-in row is missing; success stores the trimmed id and reports the premium answer |
| LinkTelegram.LinkUpgradesPremium | src/app/api/user/link-telegram/route.ts:23-50 | for a signed-in user with a row and an id no other account holds, linking succeeds, stores the trimmed id and sets the plan to premium exactly when the list says so, leaving it unchanged otherwise |
| LinkTelegram.ConflictIffOtherHolder | src/app/api/user/link-telegram/route.ts:23-26 | with unique ids, the conflict check refuses exactly the ids held by some other account |
| LinkTelegram.LinkKeepsUnique | src/app/api/user/link-telegram/route.ts:23-50 | linking keeps Telegram ids, ids and emails unique |
| LinkTelegram.LinkNeverDowngrades | src/app/api/user/link-telegram/route.ts:44-50 | a premium plan stays premium whatever the list says |
| LinkTelegram.LinkTouchesOneUser | src/app/api/user/link-telegram/route.ts:44-50 | no other user's row and no other table changes |
| LinkTelegram.RelinkOwnId | src/app/api/user/link-telegram/route.ts:23-26 | re-linking the id one already holds succeeds |
| Questions.Plan | src/app/api/user/questions/route.ts:119-120 | the user's plan, or "free" when the user or the plan is missing or empty |
| Questions.Limited | src/app/api/user/questions/route.ts:118-128 | a limited user is on the free plan and the table holds at least seven questions; a user whose plan is "premium" is never limited, nor one with no question since midnight |
| Questions.TodayCount | src/app/api/user/questions/route.ts:123-127 | the count of the user's questions since midnight never exceeds the table size; it is 0 exactly when no row is the user's from today, and the table size exactly when every row is |
| Questions.TodayCountAppend | src/app/api/user/questions/route.ts:123-127 | one more question raises the count by one exactly when it is the user's and from today |
| Questions.Quoted | src/app/api/user/questions/route.ts:38 | the first min(5, n) of the n results are quoted: all of them when there are at most five, exactly five otherwise |
| Questions.WebContext | src/app/api/user/questions/route.ts:21-47 | empty exactly without a key, on an exception, on a non-ok reply or with no results; otherwise the framed snippets of the quoted results |
| Questions.Answering | src/app/api/user/questions/route.ts:64-92 | OpenAI answers exactly when the user is premium, its key is set and it gives content; Gemini exactly when that fails and its key is set and it gives content; otherwise the apology |
| Questions.CallAI | src/app/api/user/questions/route.ts:49-93 | an answer is always produced, and it is the answering provider's content or the fixed apology |
| Questions.OpenAIOnlyForPremium | src/app/api/user/questions/route.ts:64 | a user who is not premium is never answered by OpenAI |
| Questions.NoKeysApology | src/app/api/user/questions/route.ts:64-92 | without provider keys the answer is the apology |
| Questions.Post | src/app/api/user/questions/route.ts:109-145 | 401 exactly without a session, then 400 exactly for missing or blank text, then 429 exactly when a free account has asked 7 today, each with nothing stored; otherwise exactly one question with the text as sent, its answer, the user and the time is stored and returned with 201 |
| Questions.NonFreeNeverLimited | src/app/api/user/questions/route.ts:122 | a plan other than "free" is never rate-limited |
| Questions.FreeDailyCap | src/app/api/user/questions/route.ts:19-134 | a free account with at most 7 questions today still has at most 7 after any request, and a stored question adds exactly one |
| Questions.OthersDoNotCount | src/app/api/user/questions/route.ts:125-127 | another user's question does not use up this user's allowance |
| Questions.ContextQuotesAtMostFive | src/app/api/user/questions/route.ts:34-42 | with n > 0 results, the context quotes the first min(5, n) of them, and it starts with the first result framed as `[1] title`, description and `Fonte: url` |

Two behaviours of the simulator page are worth stating plainly:

- A tie in net income recommends "ordinario": the comparison at
  `src/app/simulatore/page.tsx:157-159` is a strict `>`.
- Nothing the user types is rejected. Revenue and costs go through
  `parseFloat(…) || 0` (`src/app/simulatore/page.tsx:146-147`), so text that does
  not parse counts as 0, and results appear only when the revenue is positive.

## Left out

- Rendering: all JSX, `fmt`/`toLocaleString`, the result bars and the display clamp of a negative net income. The pages and components without logic are left out as well.
- IEEE-754 doubles: money is exact `real`, so the worked examples hold exactly, not up to rounding.
- Regular-expression extraction in the feed reader. A feed is already split into items and entries with optional captured fields.
- Date parsing. A captured date is a timestamp, missing, or invalid; an invalid one aborts the feed, as `toISOString` throws.
- Network and file I/O: fetching feeds, the search API, both AI providers and reading the premium list. Each is an abstract input: a fetch result, a search outcome, a provider function of the prompt, or the parsed file.
- The system prompt text and the premium instructions. The prompt is represented by its premium flag, the web context and the question.
- The ORM, sessions, bcrypt, `randomBytes` and the clock. They are tables, parameters and a hash function. Each clock reading is a parameter; an undated feed item carries the reading `new Date()` takes when that item is read.
- Database failures other than the ones the routes provoke themselves. A missing row on update, and a NaN year, are modelled as failures that write nothing.
- Races between a uniqueness check and the following write. The model is sequential.
- The foreign key from a question to its user is not modelled. A question from a session whose user row is missing is stored.
- `GET /api/user/questions` (newest 50 questions of the user), the documents route and the profile route: plain reads and file writes with no rule of their own.
- JSON body fields are strings, null or missing. Numbers or objects where a string is expected (which make `.trim` or `.length` throw) are not modelled.
- Text.ToLower: lowers only Basic Latin and Latin-1 capitals, not the whole Unicode case mapping.
- Text.Trim: works on code points, not UTF-16 code units; `password.length` is likewise counted in code points.
- FiscalProfile.PutOfEchoIsNoop: the year is sent back as its decimal digits. `GET` returns it as a JSON number, and body fields here are strings, so echoing that number is not modelled; a year 0 sent that way would be falsy and written as null.
- Numbers.NumberOf: accepts only optional-sign decimal integers (and blank text as 0). Other `Number()` forms (fractions, exponents, hex, "Infinity") are NaN here.
- Numbers.NumberOf: the value is an exact integer. JavaScript's `Number` rounds to the nearest double, so two ids that differ beyond 2^53 compare equal there but not here. `String` of a value of 22 or more digits is in exponent form ("1e+21"), so NumberOfShowInt holds in JavaScript only for integers of magnitude at most 2^53.
- Numbers.ParseInt: the digits are read into an exact integer. JavaScript's `parseInt` builds a double, so a value beyond 2^53 is rounded and a very long digit run becomes Infinity. Because `String` writes 22 or more digits in exponent form, `parseInt(String(1e21))` is 1; ParseIntShowInt holds in JavaScript only for integers of magnitude at most 2^53.
- LinkTelegram.IsPremium: JSON numbers in the premium list are integers; a fractional number can never equal the id here.
- Articles.Hostname: reads only addresses of the form "https://" host path, as all three feeds are; ports, user info, IPv6 hosts and the parser's lower-casing of the host are not modelled.
- Articles.SortNewestFirst: the contract does not state that articles with equal dates keep their merged order, though `Array.prototype.sort` is stable.
- Chat.Send: the assistant message holds the reply's key, and `Chat.Shown` gives its text. It is proved that the text is one of the five replies, not restated for every message.
- LinkTelegram.Link: the reply carries the premium flag; the message text is `LinkTelegram.LinkMessage` of that flag.
- Questions.Post: the 429 reply is `LimitReached`, whose message is `Questions.LimitMessage`.
- The page's footer announces 7 questions per month while the route limits per day. This is display text only.

=== FILE: articles.dfy ===
/** The articles feed: each item or entry of an RSS or Atom feed becomes one
    article with cleaned title and description, default values for missing
    fields and a category inferred from keywords; the articles of all feeds are
    merged, ordered newest first and cut to the latest thirty.

    Extracting the fields with regular expressions and parsing dates happen
    before this model starts: a feed arrives as its items and entries, each
    field as the captured text (or nothing), each date as a timestamp. */
module Articles {
  import opened Wrappers
  import Text
  import Keywords

  // ---------------------------------------------------------------------------
  // Categorisation

  /** The keyword table, in the order it is searched. */
  const CategoryKeywords: seq<Keywords.Rule<string>> := [
    Keywords.Rule("forfetario", ["forfettario", "forfetario", "regime forfettario"]),
    Keywords.Rule("IVA", ["IVA", "imposta sul valore aggiunto"]),
    Keywords.Rule("dichiarazioni", ["dichiarazione dei redditi", "modello unico", "730", "dichiarazioni"]),
    Keywords.Rule("scadenze", ["scadenze", "adempimenti fiscali", "termini"]),
    Keywords.Rule("società", ["società", "SRL", "SPA", "societario"]),
    Keywords.Rule("agevolazioni", ["agevolazioni", "bonus", "credito d'imposta", "incentivi"]),
    Keywords.Rule("lavoro", ["lavoro", "dipendenti", "autonomo", "collaborazione"]),
    Keywords.Rule("contabilità", ["contabilità", "bilancio", "registrazioni"])
  ]

  /** The category of an article no keyword matches. */
  const Fallback: string := "altro"

  /** The text the keywords are searched in. */
  function SearchText(title: string, description: string): string {
    Text.ToLower(title + " " + description)
  }

  /** The name of the first category, in table order, with a keyword occurring in
      the lower-cased title and description; "altro" when there is none. The
      result is always one of the eight names or "altro". */
  function InferCategory(title: string, description: string): (c: string)
    ensures c == Fallback <==> forall j :: 0 <= j < |CategoryKeywords| ==> !Keywords.Matches(SearchText(title, description), CategoryKeywords[j])
    ensures c != Fallback ==> exists i :: Keywords.IsFirstMatch(SearchText(title, description), CategoryKeywords, i) && c == CategoryKeywords[i].key
    ensures c == Fallback || exists i :: 0 <= i < |CategoryKeywords| && c == CategoryKeywords[i].key
  {
    Keywords.Classify(SearchText(title, description), CategoryKeywords, Fallback)
  }

  /** The category names are distinct, and none is "altro". */
  lemma CategoryNamesDistinct()
    ensures forall i, j :: 0 <= i < j < |CategoryKeywords| ==> CategoryKeywords[i].key != CategoryKeywords[j].key
    ensures forall i :: 0 <= i < |CategoryKeywords| ==> CategoryKeywords[i].key != Fallback
  {
  }

  /** When the category is the name of rule `i`, rule `i` matched. */
  lemma CategoryRuleMatched(title: string, description: string, i: int)
    requires 0 <= i < |CategoryKeywords| && InferCategory(title, description) == CategoryKeywords[i].key
    ensures Keywords.Matches(SearchText(title, description), CategoryKeywords[i])
  {
    var text := SearchText(title, description);
    CategoryNamesDistinct();
    assert CategoryKeywords[i].key != Fallback;
    var j :| Keywords.IsFirstMatch(text, CategoryKeywords, j) && CategoryKeywords[j].key == CategoryKeywords[i].key;
    assert j == i;
  }

  /** The keywords written with capitals ("IVA", "SRL", "SPA") are searched for
      in lower-cased text and never match; "IVA" is reached only through its
      long form. */
  lemma IvaOnlyThroughLongForm(title: string, description: string)
    requires InferCategory(title, description) == "IVA"
    ensures Text.Contains(SearchText(title, description), "imposta sul valore aggiunto")
  {
    CategoryRuleMatched(title, description, 1);
    Keywords.MatchesTwo(SearchText(title, description), CategoryKeywords[1], "IVA", "imposta sul valore aggiunto");
    Text.UpperNeverInLowered(title + " " + description, "IVA", 0);
  }

  /** Likewise "società" is reached only through its lower-case keywords. */
  lemma SocietaOnlyThroughLowerCaseKeywords(title: string, description: string)
    requires InferCategory(title, description) == "società"
    ensures Text.Contains(SearchText(title, description), "società")
         || Text.Contains(SearchText(title, description), "societario")
  {
    CategoryRuleMatched(title, description, 4);
    Keywords.MatchesFour(SearchText(title, description), CategoryKeywords[4], "società", "SRL", "SPA", "societario");
    Text.UpperNeverInLowered(title + " " + description, "SRL", 0);
    Text.UpperNeverInLowered(title + " " + description, "SPA", 0);
  }

  // ---------------------------------------------------------------------------
  // One feed

  /** A publication date as read from the item: absent, a valid timestamp in
      milliseconds, or text that is not a date. An absent date carries the
      clock reading, in milliseconds, that `new Date()` takes when this item
      is read: each undated item has its own, and items of a feed fetched
      later read a later clock. */
  datatype DateField = NoDate(readAt: int) | Date(millis: int) | InvalidDate

  /** The fields captured from one RSS item or Atom entry. */
  datatype RawEntry = RawEntry(
    title: Option<string>,
    link: Option<string>,
    date: DateField,
    description: Option<string>)

  /** A feed's RSS items and Atom entries, each in document order. */
  datatype Feed = Feed(items: seq<RawEntry>, entries: seq<RawEntry>)

  datatype Article = Article(title: string, link: string, date: int, source: string, category: string)

  const MissingTitle: string := "No Title"
  const MissingLink: string := "#"

  /** A captured title: trimmed, with `&amp;` decoded and no other entity. */
  function CleanTitle(raw: string): (r: string)
    ensures '<' !in raw ==> '<' !in r
    ensures !Text.Contains(Text.Trim(raw), "&amp;") ==> r == Text.Trim(raw)
  {
    Text.ReplaceAll(Text.Trim(raw), "&amp;", "&")
  }

  /** A captured description: trimmed, stripped of tags, then `&nbsp;` becomes a
      space and `&amp;` an ampersand; the result never holds a `<`. */
  function CleanDescription(raw: string): (r: string)
    ensures '<' !in r
    ensures '<' !in raw && !Text.Contains(Text.Trim(raw), "&nbsp;") && !Text.Contains(Text.Trim(raw), "&amp;")
        ==> r == Text.Trim(raw)
  {
    var stripped := Text.StripTags(Text.Trim(raw));
    Text.ReplaceAll(Text.ReplaceAll(stripped, "&nbsp;", " "), "&amp;", "&")
  }

  /** `&amp;` in a title is decoded: a title holding one `&amp;` and no other
      ampersand, with no surrounding whitespace, comes out with `&` in its
      place ("A &amp; B" becomes "A & B"). */
  lemma TitleDecodesAmp(a: string, b: string)
    requires '&' !in a && '&' !in b
    requires a != [] ==> !Text.IsWhitespace(a[0])
    requires b != [] ==> !Text.IsWhitespace(b[|b| - 1])
    ensures CleanTitle(a + "&amp;" + b) == a + "&" + b
  {
    var s := a + "&amp;" + b;
    assert s[0] == if a != [] then a[0] else '&';
    assert s[|s| - 1] == if b != [] then b[|b| - 1] else ';';
    Text.TrimNoop(s);
    Text.ReplaceAllSingle(a, "&amp;", b, "&");
  }

  /** Entities are decoded once, `&nbsp;` before `&amp;`: "&amp;nbsp;" comes
      out as "&nbsp;", not as a space. */
  lemma DescriptionDecodesOnce()
    ensures CleanDescription("&amp;nbsp;") == "&nbsp;"
  {
    var s := "&amp;nbsp;";
    Text.TrimNoop(s);
    assert '<' !in s;
    var stripped := Text.StripTags(Text.Trim(s));
    assert stripped == s;
    EscapedSpaceIsNoSpace();
    assert Text.ReplaceAll(stripped, "&nbsp;", " ") == s;
    EscapedSpaceDecodes();
  }

  lemma EscapedSpaceIsNoSpace()
    ensures !Text.Contains("&amp;nbsp;", "&nbsp;")
  {
    var s := "&amp;nbsp;";
    assert s[..6][1] == 'a';
    Text.NotContainsHead(s[1..], "&nbsp;");
  }

  lemma EscapedSpaceDecodes()
    ensures Text.ReplaceAll("&amp;nbsp;", "&amp;", "&") == "&nbsp;"
  {
    var pat, rest := "&amp;", "nbsp;";
    assert '&' !in rest;
    Text.ReplaceAllLeading(pat, rest, "&");
    assert pat + rest == "&amp;nbsp;" && "&" + rest == "&nbsp;";
  }

  /** Tags go first, with their text, then `&nbsp;` becomes a space:
      "<p>a&nbsp;b</p>" comes out as "a b". */
  lemma DescriptionStripsThenDecodes()
    ensures CleanDescription("<p>a&nbsp;b</p>") == "a b"
  {
    Text.TrimNoop("<p>a&nbsp;b</p>");
    StripOpening();
    StripClosing();
    DecodeSpace();
  }

  lemma StripOpening()
    ensures Text.StripTags("<p>a&nbsp;b</p>") == Text.StripTags("a&nbsp;b</p>")
  {
    assert "<p>a&nbsp;b</p>" == "" + "<" + "p" + ">" + "a&nbsp;b</p>";
    Text.StripTagsTag("", "p", "a&nbsp;b</p>");
  }

  lemma StripClosing()
    ensures Text.StripTags("a&nbsp;b</p>") == "a&nbsp;b"
  {
    assert "a&nbsp;b</p>" == "a&nbsp;b" + "<" + "/p" + ">" + "";
    Text.StripTagsTag("a&nbsp;b", "/p", "");
  }

  lemma DecodeSpace()
    ensures Text.ReplaceAll(Text.ReplaceAll("a&nbsp;b", "&nbsp;", " "), "&amp;", "&") == "a b"
  {
    var inner := "a&nbsp;b";
    assert inner == "a" + "&nbsp;" + "b";
    Text.NoOccurrenceBeforeByChar(inner, "&nbsp;", 1);
    Text.ReplaceAllAt("a", "&nbsp;", "b", " ");
    Text.NotContainsHead("b", "&nbsp;");
    Text.NotContainsHead("a b", "&amp;");
  }

  /** One item or entry as an article of `source`; `None` when its date is not a
      valid date, which aborts the reading of the whole feed. A missing title
      becomes "No Title", a missing link "#", a missing date the clock reading
      taken when the item is read, and a missing description the empty text. */
  function ToArticle(e: RawEntry, source: string): (r: Option<Article>)
    ensures r.None? <==> e.date.InvalidDate?
    ensures r.Some? ==> r.value.source == source
    ensures r.Some? ==> r.value.title == (if e.title.Some? then CleanTitle(e.title.value) else MissingTitle)
    ensures r.Some? ==> r.value.link == (if e.link.Some? then Text.Trim(e.link.value) else MissingLink)
    ensures r.Some? ==> r.value.date == (if e.date.Date? then e.date.millis else e.date.readAt)
    ensures r.Some? ==> r.value.category == InferCategory(r.value.title, Description(e))
  {
    var title := if e.title.Some? then CleanTitle(e.title.value) else MissingTitle;
    var link := if e.link.Some? then Text.Trim(e.link.value) else MissingLink;
    var description := Description(e);
    match e.date
    case InvalidDate => None
    case NoDate(readAt) => Some(Article(title, link, readAt, source, InferCategory(title, description)))
    case Date(ms) => Some(Article(title, link, ms, source, InferCategory(title, description)))
  }

  /** The cleaned description of an item, empty when it has none. */
  function Description(e: RawEntry): (d: string)
    ensures '<' !in d
  {
    if e.description.Some? then CleanDescription(e.description.value) else ""
  }

  /** Every entry of `es` as an article, in order; `None` as soon as one has an
      invalid date. */
  function ToArticles(es: seq<RawEntry>, source: string): (r: Option<seq<Article>>)
    ensures r.None? <==> exists i :: 0 <= i < |es| && es[i].date.InvalidDate?
    ensures r.Some? ==> |r.value| == |es|
    ensures r.Some? ==> forall i :: 0 <= i < |es| ==> ToArticle(es[i], source) == Some(r.value[i])
  {
    if es == [] then Some([])
    else
      var head := ToArticle(es[0], source);
      var rest := ToArticles(es[1..], source);
      assert forall i :: 1 <= i < |es| ==> es[i] == es[1..][i - 1];
      if head.None? || rest.None? then None else Some([head.value] + rest.value)
  }

  /** Reading one feed: one article per item, then one per entry, all tagged
      with the feed's source; `None` when any date is invalid. */
  function ParseFeed(feed: Feed, source: string): (r: Option<seq<Article>>)
    ensures r.None? <==> exists e :: e in feed.items + feed.entries && e.date.InvalidDate?
    ensures r.Some? ==> |r.value| == |feed.items| + |feed.entries|
    ensures r.Some? ==> forall i :: 0 <= i < |feed.items| ==> ToArticle(feed.items[i], source) == Some(r.value[i])
    ensures r.Some? ==> forall j :: 0 <= j < |feed.entries| ==> ToArticle(feed.entries[j], source) == Some(r.value[|feed.items| + j])
    ensures r.Some? ==> forall a :: a in r.value ==> a.source == source
  {
    var all := feed.items + feed.entries;
    assert forall e :: e in all <==> exists i :: 0 <= i < |all| && all[i] == e;
    var items := ToArticles(feed.items, source);
    var entries := ToArticles(feed.entries, source);
    if items.None? || entries.None? then None
    else Some(items.value + entries.value)
  }

  // ---------------------------------------------------------------------------
  // All feeds

  /** The host name of each feed's address. */
  const FeedHosts: seq<string> := ["www.eutekne.it", "www.commercialistatelematico.com", "www.ilsole24ore.com"]

  /** The feeds read, in order, each written as scheme, host and path. */
  const RssFeeds: seq<string> := [
    "https://" + FeedHosts[0] + "/rss/feed.xml",
    "https://" + FeedHosts[1] + "/feed",
    "https://" + FeedHosts[2] + "/rss/fisco.xml"
  ]

  /** `new URL(url).hostname` for the absolute addresses above: what follows
      "https://" up to the first '/'. */
  function Hostname(url: string): (h: string)
    ensures '/' !in h
  {
    var rest := if |url| >= 8 && url[..8] == "https://" then url[8..] else url;
    UpToSlash(rest)
  }

  /** The longest prefix of `s` without a '/'. */
  function UpToSlash(s: string): (p: string)
    ensures '/' !in p && p <= s
    ensures |p| < |s| ==> s[|p|] == '/'
  {
    if s == [] || s[0] == '/' then [] else [s[0]] + UpToSlash(s[1..])
  }

  /** The host of "https://" + host + path, for a host without '/' and a path
      that is empty or starts with '/'. */
  lemma HostnameOfAddress(host: string, path: string)
    requires '/' !in host
    requires path != [] ==> path[0] == '/'
    ensures Hostname("https://" + host + path) == host
  {
    var url := "https://" + host + path;
    assert url[..8] == "https://";
    assert url[8..] == host + path;
    UpToSlashOfHost(host, path);
  }

  /** A host followed by a path that is empty or starts with '/' is cut
      exactly at the end of the host. */
  lemma {:induction false} UpToSlashOfHost(host: string, path: string)
    requires '/' !in host
    requires path != [] ==> path[0] == '/'
    ensures UpToSlash(host + path) == host
  {
    if host == [] {
      assert host + path == path;
    } else {
      assert (host + path)[1..] == host[1..] + path;
      UpToSlashOfHost(host[1..], path);
    }
  }

  /** The host names are those of the feed addresses. */
  lemma FeedHostsOfAddresses()
    ensures |RssFeeds| == |FeedHosts|
    ensures forall i :: 0 <= i < |FeedHosts| ==> Hostname(RssFeeds[i]) == FeedHosts[i]
  {
    HostnameOfAddress(FeedHosts[0], "/rss/feed.xml");
    HostnameOfAddress(FeedHosts[1], "/feed");
    HostnameOfAddress(FeedHosts[2], "/rss/fisco.xml");
  }

  /** The source name of a host: the first "www." removed. */
  function SourceName(host: string): string {
    Text.ReplaceFirst(host, "www.", "")
  }

  /** Each feed's source is its host name without the "www." it starts with. */
  lemma SourceNames()
    ensures forall i :: 0 <= i < |FeedHosts| ==> SourceName(FeedHosts[i]) == FeedHosts[i][4..]
  {
    forall i | 0 <= i < |FeedHosts|
      ensures SourceName(FeedHosts[i]) == FeedHosts[i][4..]
    {
      if i == 0 {
        SourceNameOfWww("eutekne.it");
      } else if i == 1 {
        SourceNameOfWww("commercialistatelematico.com");
      } else {
        SourceNameOfWww("ilsole24ore.com");
      }
    }
  }

  lemma SourceNameOfWww(rest: string)
    ensures SourceName("www." + rest) == rest
    ensures ("www." + rest)[4..] == rest
  {
    Text.ReplaceFirstAtStart("www.", rest, "");
  }

  /** What fetching one feed gave: a failure (a non-ok reply, or an exception
      while fetching or reading it) or the feed's content. */
  datatype Fetch = Failed | Fetched(feed: Feed)

  /** The articles one fetch contributes: none when the fetch failed or the
      feed could not be read. */
  function FeedArticles(f: Fetch, source: string): (r: seq<Article>)
    ensures f.Failed? ==> r == []
  {
    match f
    case Failed => []
    case Fetched(feed) => ParseFeed(feed, source).GetOr([])
  }

  /** A fetched feed contributes its articles when it reads, and nothing when
      reading it aborts. */
  lemma FeedArticlesParsed(f: Fetch, source: string)
    requires f.Fetched?
    ensures ParseFeed(f.feed, source).Some? ==> FeedArticles(f, source) == ParseFeed(f.feed, source).value
    ensures ParseFeed(f.feed, source).None? ==> FeedArticles(f, source) == []
  {
  }

  /** The articles of all fetches, feed after feed. */
  function AllArticles(fetches: seq<Fetch>, sources: seq<string>): seq<Article>
    requires |fetches| == |sources|
  {
    if fetches == [] then []
    else FeedArticles(fetches[0], sources[0]) + AllArticles(fetches[1..], sources[1..])
  }

  /** Merging splits at any feed boundary. */
  lemma {:induction false} AllArticlesAppend(f1: seq<Fetch>, f2: seq<Fetch>, s1: seq<string>, s2: seq<string>)
    requires |f1| == |s1| && |f2| == |s2|
    ensures AllArticles(f1 + f2, s1 + s2) == AllArticles(f1, s1) + AllArticles(f2, s2)
    decreases |f1|
  {
    if f1 != [] {
      assert (f1 + f2)[1..] == f1[1..] + f2;
      assert (s1 + s2)[1..] == s1[1..] + s2;
      AllArticlesAppend(f1[1..], f2, s1[1..], s2);
    } else {
      assert f1 + f2 == f2;
      assert s1 + s2 == s2;
    }
  }

  /** A failed feed contributes nothing, wherever it stands, and the feeds
      before and after it contribute exactly what they would without it, in
      the same order. */
  lemma FailedFeedIsSkipped(head: seq<Fetch>, rest: seq<Fetch>, headSources: seq<string>, restSources: seq<string>, source: string)
    requires |head| == |headSources| && |rest| == |restSources|
    ensures AllArticles(head + ([Failed] + rest), headSources + ([source] + restSources))
         == AllArticles(head, headSources) + AllArticles(rest, restSources)
  {
    AllArticlesAppend(head, [Failed] + rest, headSources, [source] + restSources);
    FailedHeadSkipped(rest, restSources, source);
  }

  /** A failing first feed is the same as no first feed. */
  lemma FailedHeadSkipped(fetches: seq<Fetch>, sources: seq<string>, source: string)
    requires |fetches| == |sources|
    ensures AllArticles([Failed] + fetches, [source] + sources) == AllArticles(fetches, sources)
  {
    assert ([Failed] + fetches)[1..] == fetches;
    assert ([source] + sources)[1..] == sources;
  }

  // ---------------------------------------------------------------------------
  // Ordering and the latest thirty

  /** The most articles returned. */
  const MaxArticles: nat := 30

  ghost predicate NewestFirst(s: seq<Article>) {
    forall i, j :: 0 <= i < j < |s| ==> s[i].date >= s[j].date
  }

  /** `a` placed before the first article that is not newer than it. */
  function InsertByDate(a: Article, s: seq<Article>): (r: seq<Article>)
    requires NewestFirst(s)
    ensures NewestFirst(r)
    ensures multiset(r) == multiset(s) + multiset{a}
    ensures |r| == |s| + 1
  {
    if s == [] || s[0].date <= a.date then [a] + s
    else
      var rest := InsertByDate(a, s[1..]);
      NotNewerThanHead(a, s, rest);
      assert s == [s[0]] + s[1..];
      [s[0]] + rest
  }

  /** Every article of `rest`, made of `s`'s tail and an article older than
      `s`'s head, is no newer than that head. */
  lemma NotNewerThanHead(a: Article, s: seq<Article>, rest: seq<Article>)
    requires NewestFirst(s) && s != [] && a.date < s[0].date
    requires multiset(rest) == multiset(s[1..]) + multiset{a}
    requires NewestFirst(rest)
    ensures NewestFirst([s[0]] + rest)
  {
    forall x | x in rest
      ensures x.date <= s[0].date
    {
      assert x in multiset(rest);
      if x != a {
        assert x in multiset(s[1..]);
        var j :| 0 <= j < |s[1..]| && s[1..][j] == x;
        assert s[j + 1] == x;
      }
    }
    var r := [s[0]] + rest;
    forall i, j | 0 <= i < j < |r|
      ensures r[i].date >= r[j].date
    {
      if i == 0 {
        assert r[j] in rest;
      } else {
        assert r[i] == rest[i - 1] && r[j] == rest[j - 1];
      }
    }
  }

  /** The articles in non-increasing date order, an article placed before the
      later ones with the same date. */
  function SortNewestFirst(s: seq<Article>): (r: seq<Article>)
    ensures NewestFirst(r)
    ensures multiset(r) == multiset(s)
    ensures |r| == |s|
  {
    if s == [] then []
    else
      assert s == [s[0]] + s[1..];
      InsertByDate(s[0], SortNewestFirst(s[1..]))
  }

  /** The response of the articles endpoint: the merged articles, newest first,
      at most thirty of them; the ones kept are never older than the ones left
      out, and every one comes from some feed. */
  function LatestArticles(fetches: seq<Fetch>): (r: seq<Article>)
    requires |fetches| == |FeedHosts|
    ensures NewestFirst(r)
    ensures |r| == if |AllArticles(fetches, Sources())| < MaxArticles then |AllArticles(fetches, Sources())| else MaxArticles
    ensures multiset(r) <= multiset(AllArticles(fetches, Sources()))
    ensures forall a, b :: a in r && b in multiset(AllArticles(fetches, Sources())) - multiset(r) ==> a.date >= b.date
  {
    var sorted := SortNewestFirst(AllArticles(fetches, Sources()));
    var k := if |sorted| < MaxArticles then |sorted| else MaxArticles;
    PrefixIsNewest(sorted, k);
    sorted[..k]
  }

  /** A prefix of a newest-first sequence is newest-first, and none of its
      articles is older than one left behind. */
  lemma PrefixIsNewest(sorted: seq<Article>, k: nat)
    requires NewestFirst(sorted) && k <= |sorted|
    ensures NewestFirst(sorted[..k])
    ensures multiset(sorted[..k]) <= multiset(sorted)
    ensures forall a, b :: a in sorted[..k] && b in multiset(sorted) - multiset(sorted[..k]) ==> a.date >= b.date
  {
    var r := sorted[..k];
    assert sorted == r + sorted[k..];
    assert multiset(sorted) == multiset(r) + multiset(sorted[k..]);
    forall a, b | a in r && b in multiset(sorted) - multiset(r)
      ensures a.date >= b.date
    {
      KeptNotOlder(sorted, k, a, b);
    }
  }

  lemma KeptNotOlder(sorted: seq<Article>, k: nat, a: Article, b: Article)
    requires NewestFirst(sorted) && k <= |sorted|
    requires a in sorted[..k] && b in sorted[k..]
    ensures a.date >= b.date
  {
    var i :| 0 <= i < k && sorted[..k][i] == a;
    var j :| 0 <= j < |sorted| - k && sorted[k..][j] == b;
    assert sorted[i] == a && sorted[k + j] == b;
  }

  /** Feeds are read one after another, so an undated item of a later feed
      reads a later clock and is listed before an undated item of an earlier
      one: with one undated item in each of the first two feeds and the third
      failing, the second feed's item comes first. */
  lemma LaterReadUndatedFirst(e1: RawEntry, e2: RawEntry, t1: int, t2: int)
    requires e1.date == NoDate(t1) && e2.date == NoDate(t2) && t1 < t2
    ensures var r := LatestArticles([Fetched(Feed([e1], [])), Fetched(Feed([e2], [])), Failed]);
      && |r| == 2
      && r[0].date == t2 && r[0].source == Sources()[1]
      && r[1].date == t1 && r[1].source == Sources()[0]
  {
    var srcs := Sources();
    var a1, a2 := ToArticle(e1, srcs[0]).value, ToArticle(e2, srcs[1]).value;
    var fs := [Fetched(Feed([e1], [])), Fetched(Feed([e2], [])), Failed];
    TwoSingleFeeds(e1, e2, srcs[0], srcs[1], srcs[2]);
    SortTwo(a1, a2);
    LatestOfFew(fs, [a1, a2]);
  }

  /** Fewer articles than the cut are all returned, newest first. */
  lemma LatestOfFew(fetches: seq<Fetch>, merged: seq<Article>)
    requires |fetches| == |FeedHosts| && AllArticles(fetches, Sources()) == merged && |merged| < MaxArticles
    ensures LatestArticles(fetches) == SortNewestFirst(merged)
  {
    assert SortNewestFirst(merged)[..|merged|] == SortNewestFirst(merged);
  }

  lemma SortTwo(a1: Article, a2: Article)
    requires a1.date < a2.date
    ensures SortNewestFirst([a1, a2]) == [a2, a1]
  {
    assert SortNewestFirst([a2]) == [a2];
    assert [a1, a2][1..] == [a2];
    assert InsertByDate(a1, [a2]) == [a2, a1];
  }

  lemma TwoSingleFeeds(e1: RawEntry, e2: RawEntry, s1: string, s2: string, s3: string)
    requires !e1.date.InvalidDate? && !e2.date.InvalidDate?
    ensures AllArticles([Fetched(Feed([e1], [])), Fetched(Feed([e2], [])), Failed], [s1, s2, s3])
         == [ToArticle(e1, s1).value, ToArticle(e2, s2).value]
  {
    TwoThenFailed(Fetched(Feed([e1], [])), Fetched(Feed([e2], [])), s1, s2, s3);
    SingleFeed(e1, s1);
    SingleFeed(e2, s2);
  }

  /** Two fetches followed by a failed one. */
  lemma TwoThenFailed(x1: Fetch, x2: Fetch, s1: string, s2: string, s3: string)
    ensures AllArticles([x1, x2, Failed], [s1, s2, s3]) == FeedArticles(x1, s1) + FeedArticles(x2, s2)
  {
    assert [x1, x2] + ([Failed] + []) == [x1, x2, Failed];
    assert [s1, s2] + ([s3] + []) == [s1, s2, s3];
    FailedFeedIsSkipped([x1, x2], [], [s1, s2], [], s3);
    assert [x1] + [x2] == [x1, x2] && [s1] + [s2] == [s1, s2];
    AllArticlesAppend([x1], [x2], [s1], [s2]);
    AllArticlesOne(x1, s1);
    AllArticlesOne(x2, s2);
  }

  /** One fetch alone contributes exactly its own articles. */
  lemma AllArticlesOne(x: Fetch, s: string)
    ensures AllArticles([x], [s]) == FeedArticles(x, s)
  {
    assert [x][1..] == [] && [s][1..] == [];
  }

  /** A feed holding one readable item yields that item's article. */
  lemma SingleFeed(e: RawEntry, source: string)
    requires !e.date.InvalidDate?
    ensures FeedArticles(Fetched(Feed([e], [])), source) == [ToArticle(e, source).value]
  {
    var f := Feed([e], []);
    assert f.items + f.entries == [e];
    assert ParseFeed(f, source).Some?;
    FeedArticlesParsed(Fetched(f), source);
  }

  /** The source names of the feeds, in order. */
  function Sources(): (s: seq<string>)
    ensures |s| == |FeedHosts|
  {
    [SourceName(FeedHosts[0]), SourceName(FeedHosts[1]), SourceName(FeedHosts[2])]
  }
}

=== FILE: auth.dfy ===
/** The three account routes under `api/auth`: registration, the request for
    a password-reset token and the reset itself. Hashing, the random token and
    the clock are parameters; a new user's id is one no row holds yet. */
module Auth {
  import opened Wrappers
  import opened Store

  /** A JSON reply carrying either an `error` or a `message`. */
  datatype Reply = Error(error: string) | Message(message: string)

  // ---------------------------------------------------------------------------
  // Registration

  /** The reply of the registration route: an error, or the public part of the
      new row. */
  datatype RegisterReply = RegisterError(error: string) | Registered(id: string, name: Option<string>, email: string)

  /** The row registration inserts; the plan and the other columns keep their
      table defaults, written `None`. */
  function NewUser(id: string, name: Option<string>, email: string, hashed: string, partitaIva: Option<string>): (u: User)
    ensures u.id == id && u.email == email && u.password == hashed
    ensures u.telegramId.None? && u.piano.None?
  {
    User(id, name, email, hashed, None, None, None, None, None, None, partitaIva)
  }

  /** `POST /api/auth/register`. */
  function Register(db: Db, name: Option<string>, email: Option<string>, password: Option<string>,
                    partitaIva: Option<string>, hash: string -> string, freshId: string): (r: Outcome<RegisterReply>)
    requires Find(db.users, Id(freshId)).None?
    ensures r.status == 400 <==> !Truthy(email) || !Truthy(password)
    ensures r.status == 409 <==> Truthy(email) && Truthy(password) && Find(db.users, Email(email.value)).Some?
    ensures r.status == 400 || r.status == 409 || r.status == 201
    ensures r.status != 201 ==> r.db == db && r.body.RegisterError?
    ensures r.status == 201 ==>
      && r.db.resets == db.resets && r.db.questions == db.questions
      && |r.db.users| == |db.users| + 1 && r.db.users[..|db.users|] == db.users
      && var u := r.db.users[|db.users|];
         u.id == freshId && u.email == email.value && u.password == hash(password.value)
         && u.name == name && u.partitaIva == partitaIva
         && r.body == Registered(u.id, u.name, u.email)
  {
    if !Truthy(email) || !Truthy(password) then
      Outcome(400, RegisterError("Email e password sono obbligatori"), db)
    else if Find(db.users, Email(email.value)).Some? then
      Outcome(409, RegisterError("Email già registrata"), db)
    else
      var u := NewUser(freshId, name, email.value, hash(password.value), partitaIva);
      Outcome(201, Registered(u.id, u.name, u.email), db.(users := db.users + [u]))
  }

  /** Registration keeps ids and emails unique. */
  lemma RegisterKeepsUnique(db: Db, name: Option<string>, email: Option<string>, password: Option<string>,
                            partitaIva: Option<string>, hash: string -> string, freshId: string)
    requires Wf(db) && Find(db.users, Id(freshId)).None?
    ensures Wf(Register(db, name, email, password, partitaIva, hash, freshId).db)
  {
    var r := Register(db, name, email, password, partitaIva, hash, freshId);
    if r.status == 201 {
      var u := NewUser(freshId, name, email.value, hash(password.value), partitaIva);
      AppendKeepsUnique(db.users, u);
      assert r.db.users == db.users + [u];
    }
  }

  /** Once an email is registered, registering it again is refused with 409,
      whatever the other fields. */
  lemma RegisterTwiceConflicts(db: Db, name: Option<string>, email: Option<string>, password: Option<string>,
                               partitaIva: Option<string>, hash: string -> string, freshId: string,
                               name2: Option<string>, password2: Option<string>, partitaIva2: Option<string>,
                               hash2: string -> string, freshId2: string)
    requires Find(db.users, Id(freshId)).None?
    requires Register(db, name, email, password, partitaIva, hash, freshId).status == 201
    requires Truthy(password2)
    requires Find(Register(db, name, email, password, partitaIva, hash, freshId).db.users, Id(freshId2)).None?
    ensures Register(Register(db, name, email, password, partitaIva, hash, freshId).db,
                     name2, email, password2, partitaIva2, hash2, freshId2).status == 409
  {
    var db1 := Register(db, name, email, password, partitaIva, hash, freshId).db;
    assert HasKey(db1.users[|db.users|], Email(email.value));
  }

  // ---------------------------------------------------------------------------
  // Forgotten password

  /** The answer for a known and an unknown email alike. */
  const ResetMessage := "Se l'email esiste, riceverai un link per il reset."

  /** How long a reset token stays valid: one hour, in milliseconds. */
  const ResetWindow := 3600000

  /** `POST /api/auth/forgot-password` at time `now`, with `token` the random
      token the route draws. */
  function ForgotPassword(db: Db, email: Option<string>, token: string, now: int): (r: Outcome<Reply>)
    ensures !Truthy(email) ==> r.status == 400 && r.db == db && r.body.Error?
    ensures Truthy(email) ==> r.status == 200 && r.body == Message(ResetMessage)
    ensures Truthy(email) && Find(db.users, Email(email.value)).None? ==> r.db == db
    ensures Truthy(email) && Find(db.users, Email(email.value)).Some? ==>
      && r.db.users == db.users && r.db.questions == db.questions
      && r.db.resets == db.resets + [PasswordReset(email.value, token, now + ResetWindow)]
  {
    if !Truthy(email) then
      Outcome(400, Error("Email obbligatoria"), db)
    else if Find(db.users, Email(email.value)).None? then
      Outcome(200, Message(ResetMessage), db)
    else
      Outcome(200, Message(ResetMessage), db.(resets := db.resets + [PasswordReset(email.value, token, now + ResetWindow)]))
  }

  /** The reply does not reveal whether the email belongs to an account: two
      databases get the same status and body. */
  lemma ForgotPasswordHidesAccounts(db1: Db, db2: Db, email: Option<string>, token1: string, token2: string, now1: int, now2: int)
    ensures ForgotPassword(db1, email, token1, now1).status == ForgotPassword(db2, email, token2, now2).status
    ensures ForgotPassword(db1, email, token1, now1).body == ForgotPassword(db2, email, token2, now2).body
  {
  }

  /** Asking again never withdraws a token issued before: every earlier record
      is still in the table, in its place. */
  lemma ForgotPasswordKeepsRecords(db: Db, email: Option<string>, token: string, now: int, k: int)
    requires 0 <= k < |db.resets|
    ensures var r := ForgotPassword(db, email, token, now);
      k < |r.db.resets| && r.db.resets[k] == db.resets[k]
  {
  }

  // ---------------------------------------------------------------------------
  // Password reset

  const MinPasswordLength := 6

  /** A record that still accepts `token` at time `now`; expiry is strict. */
  predicate Live(rec: PasswordReset, token: string, now: int) {
    rec.token == token && rec.expires > now
  }

  /** `findFirst` over the reset table: the first live record for the token. */
  function FirstLive(resets: seq<PasswordReset>, token: string, now: int): (r: Option<nat>)
    ensures r.Some? ==> r.value < |resets| && Live(resets[r.value], token, now)
    ensures r.None? <==> forall k :: 0 <= k < |resets| ==> !Live(resets[k], token, now)
  {
    if |resets| == 0 then None
    else if Live(resets[0], token, now) then Some(0)
    else match FirstLive(resets[1..], token, now)
      case None => None
      case Some(k) => Some(k + 1)
  }

  /** `deleteMany` by email: the records of other emails, in their order. */
  function Purge(resets: seq<PasswordReset>, email: string): (r: seq<PasswordReset>)
    ensures forall k :: 0 <= k < |r| ==> r[k].email != email && r[k] in resets
    ensures forall k :: 0 <= k < |resets| && resets[k].email != email ==> resets[k] in r
  {
    if |resets| == 0 then []
    else if resets[0].email == email then Purge(resets[1..], email)
    else [resets[0]] + Purge(resets[1..], email)
  }

  /** `POST /api/auth/reset-password` at time `now`. */
  function ResetPassword(db: Db, token: Option<string>, password: Option<string>, now: int, hash: string -> string): (r: Outcome<Reply>)
    ensures r.status == 200 || r.status == 400 || r.status == 500
    ensures !Truthy(token) || !Truthy(password) ==> r.status == 400
    ensures Truthy(password) && |password.value| < MinPasswordLength ==> r.status == 400
    ensures token.Some? && FirstLive(db.resets, token.value, now).None? ==> r.status == 400
    ensures r.status == 500 <==>
      && Truthy(token) && Truthy(password) && |password.value| >= MinPasswordLength
      && FirstLive(db.resets, token.value, now).Some?
      && Find(db.users, Email(db.resets[FirstLive(db.resets, token.value, now).value].email)).None?
    ensures r.status != 200 ==> r.db == db && r.body.Error?
    ensures r.status == 200 ==>
      && Truthy(token) && Truthy(password) && |password.value| >= MinPasswordLength
      && FirstLive(db.resets, token.value, now).Some?
      && var owner := db.resets[FirstLive(db.resets, token.value, now).value].email;
         Find(db.users, Email(owner)).Some?
         && var i := Find(db.users, Email(owner)).value;
            && r.db.users == db.users[i := db.users[i].(password := hash(password.value))]
            && r.db.resets == Purge(db.resets, owner)
            && r.db.questions == db.questions
  {
    if !Truthy(token) || !Truthy(password) then
      Outcome(400, Error("Token e password obbligatori"), db)
    else if |password.value| < MinPasswordLength then
      Outcome(400, Error("La password deve avere almeno 6 caratteri"), db)
    else match FirstLive(db.resets, token.value, now)
      case None => Outcome(400, Error("Token non valido o scaduto"), db)
      case Some(k) =>
        var owner := db.resets[k].email;
        match Find(db.users, Email(owner))
        case None => Outcome(500, Error("Errore interno"), db)
        case Some(i) =>
          var users := db.users[i := db.users[i].(password := hash(password.value))];
          Outcome(200, Message("Password aggiornata con successo"), db.(users := users, resets := Purge(db.resets, owner)))
  }

  /** A reset changes only the password of one row, so keys stay unique. */
  lemma ResetPasswordKeepsUnique(db: Db, token: Option<string>, password: Option<string>, now: int, hash: string -> string)
    requires Wf(db)
    ensures Wf(ResetPassword(db, token, password, now, hash).db)
  {
    var r := ResetPassword(db, token, password, now, hash);
    if r.status == 200 {
      var owner := db.resets[FirstLive(db.resets, token.value, now).value].email;
      var i := Find(db.users, Email(owner)).value;
      UpdateKeepsUnique(db.users, i, db.users[i].(password := hash(password.value)));
    }
  }

  /** Every record carrying `token` belongs to the same email; random 32-byte
      tokens make this so in practice. */
  predicate TokenOfOneAccount(resets: seq<PasswordReset>, token: string) {
    forall k, m :: 0 <= k < |resets| && 0 <= m < |resets| && resets[k].token == token && resets[m].token == token ==>
      resets[k].email == resets[m].email
  }

  /** A successful reset deletes every record of the account it served, and so
      the same token (which no other account's record carries) is refused the
      next time, however early. */
  lemma ResetTokenSingleUse(db: Db, token: string, password: Option<string>, now: int, hash: string -> string,
                            password2: Option<string>, now2: int, hash2: string -> string)
    requires ResetPassword(db, Some(token), password, now, hash).status == 200
    requires TokenOfOneAccount(db.resets, token)
    ensures ResetPassword(ResetPassword(db, Some(token), password, now, hash).db, Some(token), password2, now2, hash2).status == 400
  {
    var r := ResetPassword(db, Some(token), password, now, hash);
    var k := FirstLive(db.resets, token, now).value;
    var owner := db.resets[k].email;
    forall m | 0 <= m < |r.db.resets|
      ensures !Live(r.db.resets[m], token, now2)
    {
      var rec := r.db.resets[m];
      assert rec.email != owner && rec in db.resets;
      var j :| 0 <= j < |db.resets| && db.resets[j] == rec;
      assert db.resets[j].token != token;
    }
  }

  /** The reset touches one account: every other row is as it was. */
  lemma ResetPasswordTouchesOneUser(db: Db, token: Option<string>, password: Option<string>, now: int, hash: string -> string, j: int)
    requires ResetPassword(db, token, password, now, hash).status == 200
    requires 0 <= j < |db.users|
    ensures var r := ResetPassword(db, token, password, now, hash);
      |r.db.users| == |db.users|
      && r.db.users[j].email == db.users[j].email
      && (r.db.users[j] == db.users[j] || r.db.users[j] == db.users[j].(password := hash(password.value)))
  {
  }

  /** Issue and redeem: a token issued for a registered email at `issued`,
      which no earlier record carries, resets that account's password at any
      `now` before the hour is up, and is refused from then on. */
  lemma ForgotThenReset(db: Db, email: string, token: string, issued: int, password: string, now: int, hash: string -> string)
    requires Wf(db) && Find(db.users, Email(email)).Some?
    requires email != "" && token != "" && |password| >= MinPasswordLength
    requires forall k :: 0 <= k < |db.resets| ==> db.resets[k].token != token
    ensures var db1 := ForgotPassword(db, Some(email), token, issued).db;
      var r := ResetPassword(db1, Some(token), Some(password), now, hash);
      (now < issued + ResetWindow ==> r.status == 200 && r.db.users[Find(db.users, Email(email)).value].password == hash(password))
      && (now >= issued + ResetWindow ==> r.status == 400)
  {
    var db1 := ForgotPassword(db, Some(email), token, issued).db;
    var n := |db.resets|;
    assert db1.resets[n] == PasswordReset(email, token, issued + ResetWindow);
    if now < issued + ResetWindow {
      var f := FirstLive(db1.resets, token, now);
      assert Live(db1.resets[n], token, now);
      assert f.value == n;
      assert db1.users == db.users;
      assert db1.resets[f.value].email == email;
    } else {
      forall k | 0 <= k < |db1.resets|
        ensures !Live(db1.resets[k], token, now)
      {
        if k < n {
          assert db1.resets[k] == db.resets[k];
        }
      }
    }
  }
}

=== FILE: chat.dfy ===
/** The demo chat page: a fixed-priority keyword router that picks one of five
    canned replies, and the message list the page keeps, which only ever
    grows by a question followed by its reply. */
module Chat {
  import Text
  import Keywords

  // ---------------------------------------------------------------------------
  // Replies

  /** The canned replies, by the key the page stores them under. */
  datatype Reply = Default | Forfetario | Iva | Detrarre | Srl

  function ReplyText(r: Reply): string {
    match r
    case Default => "Grazie per la domanda! Sono Taxami, il tuo consulente fiscale AI. Al momento sono in modalità demo, ma nella versione completa potrò rispondere a tutte le tue domande su fisco, IVA, dichiarazioni e molto altro. \U{1F916}"
    case Forfetario => "Il **Regime Forfetario** è un regime fiscale agevolato per partite IVA con ricavi fino a €85.000. Prevede un'imposta sostitutiva del 15% (ridotta al 5% per i primi 5 anni di attività). Non si applica IVA e non si deducono i costi analiticamente, ma si usa un coefficiente di redditività. Vuoi sapere di più sui requisiti di accesso?"
    case Iva => "Le **scadenze IVA** principali sono: liquidazione mensile entro il 16 del mese successivo, trimestrale entro il 16 del secondo mese successivo al trimestre. La dichiarazione IVA annuale va presentata entro il 30 aprile. Lo split payment si applica alle operazioni verso la PA."
    case Detrarre => "Le **spese mediche** sono detraibili al 19% per la parte eccedente la franchigia di €129,11. Sono incluse: visite specialistiche, farmaci (con scontrino parlante), esami diagnostici, interventi chirurgici, protesi. Il pagamento deve essere tracciabile (carta/bonifico) tranne che per farmaci e dispositivi medici."
    case Srl => "La **SRL** (Società a Responsabilità Limitata) richiede un capitale minimo di €10.000, mentre la **SRLS** (Semplificata) può essere costituita con solo €1. La SRLS ha costi di costituzione ridotti (niente notaio per l'atto standard), ma ha limitazioni: i soci devono essere persone fisiche e lo statuto è standard. Entrambe offrono responsabilità limitata al capitale conferito."
  }

  /** The keyword groups in priority order; text matching none gets `Default`. */
  const ReplyRules: seq<Keywords.Rule<Reply>> := [
    Keywords.Rule(Forfetario, ["forfetario", "forfettario"]),
    Keywords.Rule(Iva, ["iva", "scadenz"]),
    Keywords.Rule(Detrarre, ["detrar", "medic"]),
    Keywords.Rule(Srl, ["srl"])
  ]

  /** The page's router: the lower-cased text is checked against each group in
      turn and the first group with a keyword in it decides; the result is the
      reply of the first matching rule of `ReplyRules`, `Default` when none
      matches. */
  function Route(text: string): (r: Reply)
    ensures r == Default <==> forall j :: 0 <= j < |ReplyRules| ==> !Keywords.Matches(Text.ToLower(text), ReplyRules[j])
    ensures r != Default ==> exists i :: Keywords.IsFirstMatch(Text.ToLower(text), ReplyRules, i) && ReplyRules[i].key == r
  {
    Dispatch(Text.ToLower(text))
  }

  /** The group tests on already lower-cased text. */
  function Dispatch(lower: string): (r: Reply)
    ensures r == Default <==> forall j :: 0 <= j < |ReplyRules| ==> !Keywords.Matches(lower, ReplyRules[j])
    ensures r != Default ==> exists i :: Keywords.IsFirstMatch(lower, ReplyRules, i) && ReplyRules[i].key == r
  {
    RouteGroups(lower);
    if Text.Contains(lower, "forfetario") || Text.Contains(lower, "forfettario") then Forfetario
    else if Text.Contains(lower, "iva") || Text.Contains(lower, "scadenz") then Iva
    else if Text.Contains(lower, "detrar") || Text.Contains(lower, "medic") then Detrarre
    else if Text.Contains(lower, "srl") then Srl
    else Default
  }

  /** The dispatch depends only on which keywords occur. */
  lemma DispatchByKeywords(a: string, b: string)
    requires forall p :: p in RouterKeywords ==> (Text.Contains(a, p) <==> Text.Contains(b, p))
    ensures Dispatch(a) == Dispatch(b)
  {
    assert RouterKeywords[0] == "forfetario" && RouterKeywords[1] == "forfettario";
    assert RouterKeywords[2] == "iva" && RouterKeywords[3] == "scadenz";
    assert RouterKeywords[4] == "detrar" && RouterKeywords[5] == "medic";
    assert RouterKeywords[6] == "srl";
  }

  /** What it means for each group of `ReplyRules` to match. */
  lemma RouteGroups(lower: string)
    ensures Keywords.Matches(lower, ReplyRules[0]) <==> Text.Contains(lower, "forfetario") || Text.Contains(lower, "forfettario")
    ensures Keywords.Matches(lower, ReplyRules[1]) <==> Text.Contains(lower, "iva") || Text.Contains(lower, "scadenz")
    ensures Keywords.Matches(lower, ReplyRules[2]) <==> Text.Contains(lower, "detrar") || Text.Contains(lower, "medic")
    ensures Keywords.Matches(lower, ReplyRules[3]) <==> Text.Contains(lower, "srl")
  {
    Keywords.MatchesTwo(lower, ReplyRules[0], "forfetario", "forfettario");
    Keywords.MatchesTwo(lower, ReplyRules[1], "iva", "scadenz");
    Keywords.MatchesTwo(lower, ReplyRules[2], "detrar", "medic");
    Keywords.MatchesOne(lower, ReplyRules[3], "srl");
  }

  /** Every keyword the router looks for. */
  const RouterKeywords: seq<string> := ["forfetario", "forfettario", "iva", "scadenz", "detrar", "medic", "srl"]

  /** `getResponse`: the text of the routed reply. */
  function GetResponse(text: string): (s: string)
    ensures exists r: Reply :: s == ReplyText(r)
  {
    ReplyText(Route(text))
  }

  /** Text hitting several groups gets the reply of the earliest one. */
  lemma EarliestGroupWins(text: string, i: int)
    requires 0 <= i < |ReplyRules| && Keywords.Matches(Text.ToLower(text), ReplyRules[i])
    ensures exists j :: 0 <= j <= i && Route(text) == ReplyRules[j].key
  {
  }

  /** Matching ignores case. */
  lemma RouteIgnoresCase(text: string)
    ensures Route(Text.ToLower(text)) == Route(text)
  {
    Text.ToLowerIdempotent(text);
  }

  /** Whitespace around the question does not change the reply. */
  lemma RouteIgnoresSurroundingSpace(text: string)
    ensures Route(Text.Trim(text)) == Route(text)
  {
    var lower := Text.ToLower(text);
    Text.TrimLower(text);
    forall p | p in RouterKeywords
      ensures Text.Contains(Text.Trim(lower), p) <==> Text.Contains(lower, p)
    {
      KeywordsHaveNoSpace(p);
      Text.ContainsTrimmed(lower, p);
    }
    DispatchByKeywords(Text.Trim(lower), lower);
  }

  lemma KeywordsHaveNoSpace(p: string)
    requires p in RouterKeywords
    ensures p != [] && forall j :: 0 <= j < |p| ==> !Text.IsWhitespace(p[j])
  {
    NoSpaceIn(p);
  }

  lemma NoSpaceIn(p: string)
    requires forall j :: 0 <= j < |p| ==> 'a' <= p[j] <= 'z'
    ensures forall j :: 0 <= j < |p| ==> !Text.IsWhitespace(p[j])
  {
  }

  // ---------------------------------------------------------------------------
  // The message list

  datatype Role = User | Assistant

  /** What a message shows: text the user sent, the greeting, or a canned
      reply (kept by its key; `Shown` gives the text on screen). */
  datatype Body = Said(text: string) | Welcome | Canned(reply: Reply)

  datatype Message = Message(role: Role, body: Body)

  const Greeting: string := "Ciao! Sono **Taxami**, il tuo consulente fiscale AI \U{1F916}\n\nPuoi chiedermi qualsiasi cosa su fisco, IVA, dichiarazioni dei redditi, regime forfetario e molto altro. Come posso aiutarti?"

  /** The text a message body shows. */
  function Shown(b: Body): string {
    match b
    case Said(t) => t
    case Welcome => Greeting
    case Canned(r) => ReplyText(r)
  }

  /** The messages shown and the text in the input box. */
  datatype Page = Page(messages: seq<Message>, input: string)

  const Suggestions: seq<string> := [
    "Come funziona il regime forfetario?",
    "Quali sono le scadenze IVA?",
    "Posso detrarre le spese mediche?",
    "Differenza tra SRL e SRLS?"
  ]

  /** The page as first shown: the greeting and an empty input box. */
  const Start: Page := Page([Message(Assistant, Welcome)], "")

  /** `send`: blank text changes nothing; otherwise the trimmed text and the
      reply to it are appended, in that order, and the input box is cleared. */
  function Send(p: Page, text: string): (q: Page)
    ensures Text.IsBlank(text) ==> q == p
    ensures !Text.IsBlank(text) ==> q.messages == p.messages + [Message(User, Said(Text.Trim(text))), Message(Assistant, Canned(Route(text)))]
    ensures !Text.IsBlank(text) ==> q.input == ""
  {
    if Text.IsBlank(text) then p
    else Page(p.messages + [Message(User, Said(Text.Trim(text))), Message(Assistant, Canned(Route(text)))], "")
  }

  /** The suggestion buttons are shown while only the greeting is. */
  predicate ShowsSuggestions(p: Page) {
    |p.messages| <= 1
  }

  /** What the user can do: edit the input box, submit it (Enter or the send
      button), or pick a suggestion button. */
  datatype Event = Edited(text: string) | Submitted | Picked(index: nat)

  /** The page after one event. A suggestion can only be picked while the
      buttons are shown. */
  function Step(p: Page, e: Event): (q: Page)
    ensures p.messages <= q.messages
    ensures e.Edited? ==> q == p.(input := e.text)
  {
    match e
    case Edited(t) => p.(input := t)
    case Submitted => Send(p, p.input)
    case Picked(i) => if ShowsSuggestions(p) && i < |Suggestions| then Send(p, Suggestions[i]) else p
  }

  function Run(p: Page, events: seq<Event>): Page
    decreases |events|
  {
    if events == [] then p else Run(Step(p, events[0]), events[1..])
  }

  /** A question and its reply: a non-blank trimmed user text followed by the
      reply `respond` gives it. */
  ghost predicate IsExchange(q: Message, a: Message, respond: string -> Reply) {
    && q.role == User
    && q.body.Said?
    && q.body.text != []
    && Text.Trim(q.body.text) == q.body.text
    && a == Message(Assistant, Canned(respond(q.body.text)))
  }

  /** The greeting alone, or such a list followed by one question and the
      reply `respond` gives it. */
  ghost predicate Transcript(m: seq<Message>, respond: string -> Reply)
    decreases |m|
  {
    if |m| <= 2 then m == [Message(Assistant, Welcome)]
    else Transcript(m[..|m| - 2], respond) && IsExchange(m[|m| - 2], m[|m| - 1], respond)
  }

  /** The lists the page can show: transcripts of the router's replies. */
  ghost predicate WellFormed(p: Page) {
    Transcript(p.messages, Route)
  }

  lemma StartWellFormed()
    ensures WellFormed(Start)
    ensures ShowsSuggestions(Start)
  {
  }

  /** A transcript holds an odd number of messages, the greeting first. */
  lemma {:induction false} TranscriptOdd(m: seq<Message>, respond: string -> Reply)
    requires Transcript(m, respond)
    ensures |m| % 2 == 1
    ensures m[0] == Message(Assistant, Welcome)
    decreases |m|
  {
    if |m| > 2 {
      TranscriptOdd(m[..|m| - 2], respond);
    }
  }

  /** In a transcript the assistant speaks at even positions and the user at
      odd ones; every user message is trimmed and non-blank, and the message
      after it is the router's reply to it. */
  lemma {:induction false} TranscriptAlternates(m: seq<Message>, respond: string -> Reply, i: int)
    requires Transcript(m, respond) && 0 <= i < |m|
    ensures m[i].role == (if i % 2 == 0 then Assistant else User)
    ensures m[i].role == User ==> i + 1 < |m| && IsExchange(m[i], m[i + 1], respond)
    decreases |m|
  {
    if |m| > 2 {
      var prefix := m[..|m| - 2];
      TranscriptOdd(prefix, respond);
      if i < |m| - 2 {
        TranscriptAlternates(prefix, respond, i);
        assert m[i] == prefix[i];
        if m[i].role == User {
          assert m[i + 1] == prefix[i + 1];
        }
      }
    }
  }

  /** Appending one exchange keeps the list well formed. */
  lemma AppendExchange(m: seq<Message>, q: Message, a: Message, respond: string -> Reply)
    requires Transcript(m, respond) && IsExchange(q, a, respond)
    ensures Transcript(m + [q, a], respond)
  {
    TranscriptOdd(m, respond);
    var m' := m + [q, a];
    assert m'[..|m'| - 2] == m;
  }

  /** Sending keeps the list well formed. */
  lemma SendWellFormed(p: Page, text: string)
    requires WellFormed(p)
    ensures WellFormed(Send(p, text))
  {
    if !Text.IsBlank(text) {
      var t := Text.Trim(text);
      Text.TrimIdempotent(text);
      RouteIgnoresSurroundingSpace(text);
      AppendExchange(p.messages, Message(User, Said(t)), Message(Assistant, Canned(Route(text))), Route);
    }
  }

  lemma StepWellFormed(p: Page, e: Event)
    requires WellFormed(p)
    ensures WellFormed(Step(p, e))
  {
    match e
    case Edited(t) =>
    case Submitted => SendWellFormed(p, p.input);
    case Picked(i) =>
      if ShowsSuggestions(p) && i < |Suggestions| {
        SendWellFormed(p, Suggestions[i]);
      }
  }

  /** Every list reachable from a well-formed page is well formed. */
  lemma {:induction false} RunWellFormed(p: Page, events: seq<Event>)
    requires WellFormed(p)
    ensures WellFormed(Run(p, events))
    decreases |events|
  {
    if events != [] {
      StepWellFormed(p, events[0]);
      RunWellFormed(Step(p, events[0]), events[1..]);
    }
  }

  /** The list only grows: earlier messages are never changed or removed. */
  lemma {:induction false} RunExtends(p: Page, events: seq<Event>)
    ensures p.messages <= Run(p, events).messages
    decreases |events|
  {
    if events != [] {
      RunExtends(Step(p, events[0]), events[1..]);
    }
  }

  /** Once a question has been sent the suggestions never come back. */
  lemma SuggestionsNeverReturn(p: Page, events: seq<Event>)
    requires !ShowsSuggestions(p)
    ensures !ShowsSuggestions(Run(p, events))
  {
    RunExtends(p, events);
  }

  /** A question sent from the first page hides the suggestions. */
  lemma FirstQuestionHidesSuggestions(text: string)
    requires !Text.IsBlank(text)
    ensures |Send(Start, text).messages| == 3
    ensures !ShowsSuggestions(Send(Start, text))
  {
  }
}

=== FILE: keywords.dfy ===
/** First-match keyword classification: a table of rules, each a key and the
    keywords that select it, searched in order; the first rule with a keyword
    occurring in the text decides. The feed categoriser and the demo chat
    responder both work this way. */
module Keywords {
  import opened Wrappers
  import Text

  /** A key and the keywords that select it. */
  datatype Rule<K> = Rule(key: K, keywords: seq<string>)

  /** Some keyword of `rule` occurs in `text`. */
  ghost predicate Matches<K>(text: string, rule: Rule<K>) {
    exists k :: 0 <= k < |rule.keywords| && Text.Contains(text, rule.keywords[k])
  }

  /** Rule `i` matches `text` and no earlier rule does. */
  ghost predicate IsFirstMatch<K>(text: string, rules: seq<Rule<K>>, i: int) {
    && 0 <= i < |rules|
    && Matches(text, rules[i])
    && forall j :: 0 <= j < i ==> !Matches(text, rules[j])
  }

  /** Whether one of `keywords` occurs in `text`, trying them in order. */
  function HasKeyword(text: string, keywords: seq<string>): (b: bool)
    ensures b <==> exists k :: 0 <= k < |keywords| && Text.Contains(text, keywords[k])
  {
    if keywords == [] then false
    else if Text.Contains(text, keywords[0]) then true
    else
      var b := HasKeyword(text, keywords[1..]);
      assert forall k :: 1 <= k < |keywords| ==> keywords[k] == keywords[1..][k - 1];
      b
  }

  /** The index of the first rule with a keyword in `text`, searching from `from`. */
  function FirstMatch<K>(text: string, rules: seq<Rule<K>>, from: nat): (r: Option<nat>)
    requires from <= |rules|
    requires forall j :: 0 <= j < from ==> !Matches(text, rules[j])
    ensures r.Some? ==> IsFirstMatch(text, rules, r.value)
    ensures r.None? <==> forall j :: 0 <= j < |rules| ==> !Matches(text, rules[j])
    decreases |rules| - from
  {
    if from == |rules| then None
    else if HasKeyword(text, rules[from].keywords) then Some(from)
    else FirstMatch(text, rules, from + 1)
  }

  /** The key of the first rule matching `text`, or `fallback` when none does. */
  function Classify<K>(text: string, rules: seq<Rule<K>>, fallback: K): (k: K)
    ensures (forall j :: 0 <= j < |rules| ==> !Matches(text, rules[j])) ==> k == fallback
    ensures (exists j :: 0 <= j < |rules| && Matches(text, rules[j]))
        ==> exists i :: IsFirstMatch(text, rules, i) && k == rules[i].key
  {
    match FirstMatch(text, rules, 0)
    case None => fallback
    case Some(i) => rules[i].key
  }

  /** A rule with a single keyword matches when that keyword occurs. */
  lemma MatchesOne<K>(text: string, rule: Rule<K>, a: string)
    requires rule.keywords == [a]
    ensures Matches(text, rule) <==> Text.Contains(text, a)
  {
    if Text.Contains(text, a) {
      assert rule.keywords[0] == a;
    }
  }

  /** A rule with two keywords matches when either occurs. */
  lemma MatchesTwo<K>(text: string, rule: Rule<K>, a: string, b: string)
    requires rule.keywords == [a, b]
    ensures Matches(text, rule) <==> Text.Contains(text, a) || Text.Contains(text, b)
  {
    if Text.Contains(text, a) {
      assert rule.keywords[0] == a;
    }
    if Text.Contains(text, b) {
      assert rule.keywords[1] == b;
    }
  }

  /** A rule with four keywords matches when any of them occurs. */
  lemma MatchesFour<K>(text: string, rule: Rule<K>, a: string, b: string, c: string, d: string)
    requires rule.keywords == [a, b, c, d]
    ensures Matches(text, rule) <==> Text.Contains(text, a) || Text.Contains(text, b) || Text.Contains(text, c) || Text.Contains(text, d)
  {
    var kws := rule.keywords;
    assert kws[0] == a && kws[1] == b && kws[2] == c && kws[3] == d;
    if Matches(text, rule) {
      var k :| 0 <= k < 4 && Text.Contains(text, kws[k]);
      assert k == 0 || k == 1 || k == 2 || k == 3;
    }
  }

  /** There is at most one first match. */
  lemma FirstMatchUnique<K>(text: string, rules: seq<Rule<K>>, i: int, j: int)
    requires IsFirstMatch(text, rules, i) && IsFirstMatch(text, rules, j)
    ensures i == j
  {
  }
}

=== FILE: numbers.dfy ===
/** Decimal text and integers: `String(n)`, `parseInt(s)` and `Number(s)` on
    the integer-valued strings the routes convert. */
module Numbers {
  import opened Wrappers
  import Text

  predicate IsDigit(c: char) {
    '0' <= c <= '9'
  }

  predicate AllDigits(s: string) {
    forall i :: 0 <= i < |s| ==> IsDigit(s[i])
  }

  function DigitValue(c: char): (d: nat)
    requires IsDigit(c)
    ensures d < 10
  {
    c as int - '0' as int
  }

  function DigitChar(d: nat): (c: char)
    requires d < 10
    ensures IsDigit(c) && DigitValue(c) == d
  {
    ('0' as int + d) as char
  }

  /** The value of a string of decimal digits, most significant digit first. */
  function DigitsValue(ds: string): nat
    requires AllDigits(ds)
  {
    if ds == [] then 0 else DigitsValue(ds[..|ds| - 1]) * 10 + DigitValue(ds[|ds| - 1])
  }

  /** `String(n)` for a natural number: its decimal digits, without leading zeros. */
  function ShowNat(n: nat): (s: string)
    ensures |s| >= 1 && AllDigits(s)
    ensures s[0] == '0' ==> n == 0
  {
    if n < 10 then [DigitChar(n)] else ShowNat(n / 10) + [DigitChar(n % 10)]
  }

  /** `String(i)` for an integer. */
  function ShowInt(i: int): (s: string)
    ensures |s| >= 1
    ensures i >= 0 ==> AllDigits(s)
    ensures i < 0 ==> s[0] == '-' && AllDigits(s[1..])
  {
    if i < 0 then "-" + ShowNat(-i) else ShowNat(i)
  }

  /** Reading back the digits `ShowNat` wrote gives the number it started from. */
  lemma {:induction false} ShowNatValue(n: nat)
    ensures DigitsValue(ShowNat(n)) == n
  {
    if n >= 10 {
      var s := ShowNat(n);
      assert s[..|s| - 1] == ShowNat(n / 10);
      ShowNatValue(n / 10);
    }
  }

  lemma DigitIsNotSpace(c: char)
    requires IsDigit(c) || c == '-'
    ensures !Text.IsWhitespace(c)
  {
  }

  /** The longest prefix of `s` made of digits. */
  function DigitPrefix(s: string): (r: string)
    ensures |r| <= |s| && r == s[..|r|] && AllDigits(r)
    ensures |r| < |s| ==> !IsDigit(s[|r|])
  {
    if |s| > 0 && IsDigit(s[0]) then [s[0]] + DigitPrefix(s[1..]) else []
  }

  /** `s` without a leading `+` or `-`. */
  function Unsigned(s: string): (r: string)
    ensures |s| > 0 && (s[0] == '+' || s[0] == '-') ==> r == s[1..]
    ensures (|s| == 0 || (s[0] != '+' && s[0] != '-')) ==> r == s
  {
    if |s| > 0 && (s[0] == '+' || s[0] == '-') then s[1..] else s
  }

  predicate IsHexDigit(c: char) {
    IsDigit(c) || ('a' <= c <= 'f') || ('A' <= c <= 'F')
  }

  predicate AllHex(s: string) {
    forall i :: 0 <= i < |s| ==> IsHexDigit(s[i])
  }

  function HexDigitValue(c: char): (d: nat)
    requires IsHexDigit(c)
    ensures d < 16
    ensures IsDigit(c) ==> d == DigitValue(c)
  {
    if IsDigit(c) then DigitValue(c)
    else if 'a' <= c <= 'f' then c as int - 'a' as int + 10
    else c as int - 'A' as int + 10
  }

  /** The value of a string of hexadecimal digits, most significant first. */
  function HexValue(hs: string): nat
    requires AllHex(hs)
  {
    if hs == [] then 0 else HexValue(hs[..|hs| - 1]) * 16 + HexDigitValue(hs[|hs| - 1])
  }

  /** The longest prefix of `s` made of hexadecimal digits. */
  function HexPrefix(s: string): (r: string)
    ensures |r| <= |s| && r == s[..|r|] && AllHex(r)
    ensures |r| < |s| ==> !IsHexDigit(s[|r|])
  {
    if |s| > 0 && IsHexDigit(s[0]) then [s[0]] + HexPrefix(s[1..]) else []
  }

  /** `parseInt` without a radix reads text starting with `0x` or `0X` (after
      the sign) as hexadecimal. */
  predicate HasHexPrefix(u: string) {
    |u| >= 2 && u[0] == '0' && (u[1] == 'x' || u[1] == 'X')
  }

  /** The magnitude an unsigned numeral starts with: the hexadecimal digits
      after a `0x` prefix, otherwise the decimal digits; `None` when there are
      none. */
  function Magnitude(u: string): (m: Option<nat>)
    ensures HasHexPrefix(u) ==> (m.None? <==> HexPrefix(u[2..]) == [])
    ensures HasHexPrefix(u) && m.Some? ==> m.value == HexValue(HexPrefix(u[2..]))
    ensures !HasHexPrefix(u) ==> (m.None? <==> DigitPrefix(u) == [])
    ensures !HasHexPrefix(u) && m.Some? ==> m.value == DigitsValue(DigitPrefix(u))
  {
    if HasHexPrefix(u) then
      var hs := HexPrefix(u[2..]);
      if hs == [] then None else Some(HexValue(hs))
    else
      var ds := DigitPrefix(u);
      if ds == [] then None else Some(DigitsValue(ds))
  }

  /** `parseInt(s)`, the one-argument call: leading whitespace is skipped, an
      optional sign is read, then a `0x`/`0X` prefix selects base 16, and the
      longest run of digits of the base is read; `None` stands for NaN, the
      result when no digit follows. */
  function ParseInt(s: string): (r: Option<int>)
    ensures var u := Unsigned(Text.TrimStart(s));
      && (!HasHexPrefix(u) ==> (r.None? <==> DigitPrefix(u) == []))
      && (HasHexPrefix(u) ==> (r.None? <==> HexPrefix(u[2..]) == []))
    ensures r.Some? && r.value < 0 ==> Text.TrimStart(s)[0] == '-'
  {
    ParseSigned(Text.TrimStart(s))
  }

  /** The signed number `t` starts with. */
  function ParseSigned(t: string): (r: Option<int>)
    ensures r.None? <==> Magnitude(Unsigned(t)).None?
    ensures r.Some? && r.value < 0 ==> t[0] == '-'
  {
    match Magnitude(Unsigned(t))
    case None => None
    case Some(m) => if |t| > 0 && t[0] == '-' then Some(-(m as int)) else Some(m)
  }

  /** With the prefix the hexadecimal digits are read: `parseInt("0x7E9")`
      is 2025. */
  lemma HexPrefixRead()
    ensures ParseInt("0x7E9") == Some(2025)
  {
    var s := "0x7E9";
    SignedIsTrimmed(s);
    assert Unsigned(s) == s;
    assert HasHexPrefix(s);
    assert s[2..] == "7E9";
    HexPrefixOfHex("7E9");
    HexSevenE9();
  }

  /** A prefix with no digit after it is NaN: `parseInt("0x")`. */
  lemma HexPrefixAlone()
    ensures ParseInt("0x") == None
  {
    var s := "0x";
    SignedIsTrimmed(s);
    assert Unsigned(s) == s;
    assert s[2..] == [];
  }

  lemma HexSevenE9()
    ensures AllHex("7E9") && HexValue("7E9") == 2025
  {
    assert "7E9"[..2] == "7E";
    assert "7E"[..1] == "7";
    assert "7"[..0] == "";
  }

  lemma {:induction false} HexPrefixOfHex(hs: string)
    requires AllHex(hs)
    ensures HexPrefix(hs) == hs
  {
    if hs != [] {
      HexPrefixOfHex(hs[1..]);
    }
  }

  /** `parseInt` stops at the first non-digit: the digits of `n` followed by
      anything that does not start with a digit read back as `n`, except that an
      `x` after a lone `0` would start a hexadecimal numeral. */
  lemma {:induction false} ParseIntStopsAtNonDigit(n: nat, rest: string)
    requires rest == [] || !IsDigit(rest[0])
    requires n == 0 && rest != [] ==> rest[0] != 'x' && rest[0] != 'X'
    ensures ParseInt(ShowNat(n) + rest) == Some(n)
  {
    var ds := ShowNat(n);
    var s := ds + rest;
    assert s[0] == ds[0];
    DigitIsNotSpace(s[0]);
    Text.TrimStartNoop(s);
    assert !HasHexPrefix(s) by {
      if n == 0 && |s| >= 2 {
        assert s[1] == rest[0];
      }
    }
    DigitPrefixOfDigits(ds, rest);
    ShowNatValue(n);
    ParseSignedUnsigned(s, ds);
  }

  lemma {:induction false} ParseSignedUnsigned(t: string, ds: string)
    requires t != [] && IsDigit(t[0]) && DigitPrefix(t) == ds && !HasHexPrefix(t)
    ensures ParseSigned(t) == Some(DigitsValue(ds))
  {
    assert t[0] != '+' && t[0] != '-';
    assert Unsigned(t) == t;
  }

  lemma {:induction false} DigitPrefixOfDigits(ds: string, rest: string)
    requires AllDigits(ds)
    requires rest == [] || !IsDigit(rest[0])
    ensures DigitPrefix(ds + rest) == ds
  {
    if ds != [] {
      assert (ds + rest)[1..] == ds[1..] + rest;
      DigitPrefixOfDigits(ds[1..], rest);
    } else {
      assert ds + rest == rest;
    }
  }

  /** `parseInt(String(i))` is `i`. */
  lemma ParseIntShowInt(i: int)
    ensures ParseInt(ShowInt(i)) == Some(i)
  {
    if i >= 0 {
      ParseIntShowNat(i);
    } else {
      ParseIntShowNegative(i);
    }
  }

  lemma ParseIntShowNat(n: nat)
    ensures ParseInt(ShowInt(n)) == Some(n)
  {
    assert ShowInt(n) == ShowNat(n) + [];
    ParseIntStopsAtNonDigit(n, []);
  }

  lemma ParseIntShowNegative(i: int)
    requires i < 0
    ensures ParseInt(ShowInt(i)) == Some(i)
  {
    var m: nat := -i;
    ShowNatValue(m);
    ParseIntMinusDigits(ShowNat(m));
  }

  lemma ParseIntMinusDigits(ds: string)
    requires ds != [] && AllDigits(ds)
    ensures ParseInt("-" + ds) == Some(-(DigitsValue(ds) as int))
  {
    var s := "-" + ds;
    assert s[1..] == ds;
    ParseIntMinus(s, ds);
  }

  /** A minus sign followed by digits reads back as the negated digits. */
  lemma {:induction false} ParseIntMinus(s: string, ds: string)
    requires |s| > 0 && s[0] == '-' && s[1..] == ds
    requires ds != [] && AllDigits(ds)
    ensures ParseInt(s) == Some(-(DigitsValue(ds) as int))
  {
    SignedIsTrimmed(s);
    DigitPrefixOfAllDigits(ds);
    ParseSignedMinus(s, ds);
  }

  /** Text starting with a digit or a minus sign has no leading whitespace. */
  lemma SignedIsTrimmed(s: string)
    requires |s| > 0 && (IsDigit(s[0]) || s[0] == '-')
    ensures Text.TrimStart(s) == s
  {
    DigitIsNotSpace(s[0]);
    Text.TrimStartNoop(s);
  }

  lemma DigitPrefixOfAllDigits(ds: string)
    requires AllDigits(ds)
    ensures DigitPrefix(ds) == ds
  {
    assert ds + [] == ds;
    DigitPrefixOfDigits(ds, []);
  }

  lemma {:induction false} ParseSignedMinus(t: string, ds: string)
    requires |t| > 0 && t[0] == '-' && t[1..] == ds && DigitPrefix(ds) == ds && ds != []
    ensures ParseSigned(t) == Some(-(DigitsValue(ds) as int))
  {
    assert Unsigned(t) == ds;
  }

  /** `Number(s)` on integer numerals: surrounding whitespace is ignored, the
      empty string is 0, an optional sign may precede the digits; any other text
      is NaN, written `None`. */
  function NumberOf(s: string): (r: Option<int>)
    ensures Text.Trim(s) == [] ==> r == Some(0)
    ensures r.Some? && Text.Trim(s) != [] ==> AllDigits(Unsigned(Text.Trim(s))) && Unsigned(Text.Trim(s)) != []
  {
    var t := Text.Trim(s);
    var body := Unsigned(t);
    if t == [] then Some(0)
    else if body == [] || !AllDigits(body) then None
    else if t[0] == '-' then Some(-(DigitsValue(body) as int))
    else Some(DigitsValue(body))
  }

  /** `Number(String(i))` is `i`. */
  lemma NumberOfShowInt(i: int)
    ensures NumberOf(ShowInt(i)) == Some(i)
  {
    var m: nat := if i < 0 then -i else i;
    ShowNatValue(m);
    if i < 0 {
      NumberOfSigned(ShowNat(m));
    } else {
      NumberOfDigits(ShowNat(m));
    }
  }

  lemma NumberOfDigits(ds: string)
    requires ds != [] && AllDigits(ds)
    ensures NumberOf(ds) == Some(DigitsValue(ds))
  {
    DigitIsNotSpace(ds[0]);
    DigitIsNotSpace(ds[|ds| - 1]);
    Text.TrimNoop(ds);
    assert ds[0] != '+' && ds[0] != '-';
    assert Unsigned(ds) == ds;
  }

  lemma NumberOfSigned(ds: string)
    requires ds != [] && AllDigits(ds)
    ensures NumberOf("-" + ds) == Some(-(DigitsValue(ds) as int))
  {
    var s := "-" + ds;
    assert s[|s| - 1] == ds[|ds| - 1];
    DigitIsNotSpace(s[0]);
    DigitIsNotSpace(s[|s| - 1]);
    Text.TrimNoop(s);
    assert s[1..] == ds;
    assert Unsigned(s) == ds;
  }
}

=== FILE: profile.dfy ===
/** `GET` and `PUT /api/user/fiscal-profile`: the five fiscal columns of the
    signed-in user, read as a projection and written as a partial update. The
    session is the signed-in user's id, or `None`. */
module FiscalProfile {
  import opened Wrappers
  import opened Store
  import Numbers

  /** A field of the JSON body: left out of it, `null`, or a string. */
  datatype Field = Undefined | Null | Str(s: string)

  /** The body of a `PUT`. */
  datatype Update = Update(
    regimeFiscale: Field,
    codiceAteco: Field,
    settoreAttivita: Field,
    annoApertura: Field,
    partitaIva: Field)

  /** The five columns both routes select. */
  datatype Profile = Profile(
    regimeFiscale: Option<string>,
    codiceAteco: Option<string>,
    settoreAttivita: Option<string>,
    annoApertura: Option<int>,
    partitaIva: Option<string>)

  /** A reply: not signed in, `{}`, the selected columns, or a failed update. */
  datatype Reply = Unauthenticated | NoProfile | Shown(profile: Profile) | Failed

  function Projection(u: User): Profile {
    Profile(u.regimeFiscale, u.codiceAteco, u.settoreAttivita, u.annoApertura, u.partitaIva)
  }

  /** `GET`: 401 without a session, `{}` for an unknown user, otherwise the
      five columns of that user's row. */
  function Get(db: Db, session: Option<string>): (r: Outcome<Reply>)
    ensures r.db == db
    ensures r.status == 401 <==> session.None?
    ensures r.status == 401 ==> r.body == Unauthenticated
    ensures session.Some? ==> r.status == 200
    ensures session.Some? && Find(db.users, Id(session.value)).None? ==> r.body == NoProfile
    ensures session.Some? && Find(db.users, Id(session.value)).Some? ==>
      r.body == Shown(Projection(db.users[Find(db.users, Id(session.value)).value]))
  {
    match session
    case None => Outcome(401, Unauthenticated, db)
    case Some(id) =>
      match Find(db.users, Id(id))
      case None => Outcome(200, NoProfile, db)
      case Some(i) => Outcome(200, Shown(Projection(db.users[i])), db)
  }

  /** A text column after the update: kept when the field is left out,
      written otherwise, `null` and `""` included. */
  function Write(prev: Option<string>, f: Field): (r: Option<string>)
    ensures f.Undefined? ==> r == prev
    ensures f.Null? ==> r.None?
    ensures f.Str? ==> r == Some(f.s)
  {
    match f
    case Undefined => prev
    case Null => None
    case Str(s) => Some(s)
  }

  /** The year column after the update, or `None` when the value cannot be
      stored: a falsy value (`null`, `""`) is written as `null`, any other is
      passed through `parseInt`, and NaN is refused by the integer column. */
  function WriteYear(prev: Option<int>, f: Field): (r: Option<Option<int>>)
    ensures f.Undefined? ==> r == Some(prev)
    ensures f.Null? || f == Str("") ==> r == Some(None)
    ensures f.Str? && f.s != "" ==> r == (if Numbers.ParseInt(f.s).Some? then Some(Numbers.ParseInt(f.s)) else None)
  {
    match f
    case Undefined => Some(prev)
    case Null => Some(None)
    case Str(s) =>
      if s == "" then Some(None)
      else match Numbers.ParseInt(s)
        case None => None
        case Some(n) => Some(Some(n))
  }

  /** The row after the update, or `None` when the year cannot be stored. */
  function Merge(u: User, b: Update): (r: Option<User>)
    ensures r.None? <==> WriteYear(u.annoApertura, b.annoApertura).None?
    ensures r.Some? ==>
      && r.value.regimeFiscale == Write(u.regimeFiscale, b.regimeFiscale)
      && r.value.codiceAteco == Write(u.codiceAteco, b.codiceAteco)
      && r.value.settoreAttivita == Write(u.settoreAttivita, b.settoreAttivita)
      && r.value.annoApertura == WriteYear(u.annoApertura, b.annoApertura).value
      && r.value.partitaIva == Write(u.partitaIva, b.partitaIva)
      && SameAccount(u, r.value)
  {
    match WriteYear(u.annoApertura, b.annoApertura)
    case None => None
    case Some(year) =>
      Some(u.(regimeFiscale := Write(u.regimeFiscale, b.regimeFiscale),
              codiceAteco := Write(u.codiceAteco, b.codiceAteco),
              settoreAttivita := Write(u.settoreAttivita, b.settoreAttivita),
              annoApertura := year,
              partitaIva := Write(u.partitaIva, b.partitaIva)))
  }

  /** Two rows that agree on every column outside the fiscal profile. */
  predicate SameAccount(u: User, v: User) {
    u.id == v.id && u.name == v.name && u.email == v.email && u.password == v.password
    && u.piano == v.piano && u.telegramId == v.telegramId
  }

  /** The update of `userId`'s row throws: the row is missing, or the year
      cannot be stored. */
  predicate Unstorable(db: Db, userId: string, b: Update) {
    Find(db.users, Id(userId)).None? || Merge(db.users[Find(db.users, Id(userId)).value], b).None?
  }

  /** `PUT`: 401 without a session; a missing row or a year the column refuses
      makes the update throw (500, nothing written); otherwise the merged row
      replaces the old one and its five columns are returned. */
  function Put(db: Db, session: Option<string>, b: Update): (r: Outcome<Reply>)
    ensures r.status == 401 <==> session.None?
    ensures r.status == 500 <==> session.Some? && Unstorable(db, session.value, b)
    ensures r.status == 200 || r.status == 401 || r.status == 500
    ensures r.status != 200 ==> r.db == db
    ensures r.status == 200 ==>
      && session.Some? && Find(db.users, Id(session.value)).Some?
      && var i := Find(db.users, Id(session.value)).value;
         Merge(db.users[i], b).Some?
         && r.db == db.(users := db.users[i := Merge(db.users[i], b).value])
         && r.body == Shown(Projection(Merge(db.users[i], b).value))
  {
    match session
    case None => Outcome(401, Unauthenticated, db)
    case Some(id) =>
      match Find(db.users, Id(id))
      case None => Outcome(500, Failed, db)
      case Some(i) =>
        match Merge(db.users[i], b)
        case None => Outcome(500, Failed, db)
        case Some(u) => Outcome(200, Shown(Projection(u)), db.(users := db.users[i := u]))
  }

  /** A `PUT` changes nothing outside the signed-in user's fiscal columns:
      every other row is untouched and that row keeps its account columns. */
  lemma PutTouchesOnlyProfile(db: Db, session: Option<string>, b: Update, j: int)
    requires 0 <= j < |db.users|
    ensures var r := Put(db, session, b);
      |r.db.users| == |db.users| && SameAccount(db.users[j], r.db.users[j])
      && (session.None? || db.users[j].id != session.value ==> r.db.users[j] == db.users[j])
      && r.db.resets == db.resets && r.db.questions == db.questions
  {
  }

  /** An update keeps the key columns unique. */
  lemma PutKeepsUnique(db: Db, session: Option<string>, b: Update)
    requires Wf(db)
    ensures Wf(Put(db, session, b).db)
  {
    var r := Put(db, session, b);
    if r.status == 200 {
      var i := Find(db.users, Id(session.value)).value;
      UpdateKeepsUnique(db.users, i, Merge(db.users[i], b).value);
    }
  }

  /** What a successful `PUT` answers is what the next `GET` reads back. */
  lemma PutThenGet(db: Db, session: Option<string>, b: Update)
    requires Wf(db)
    requires Put(db, session, b).status == 200
    ensures Get(Put(db, session, b).db, session).body == Put(db, session, b).body
  {
    var r := Put(db, session, b);
    var i := Find(db.users, Id(session.value)).value;
    PutKeepsUnique(db, session, b);
    assert HasKey(r.db.users[i], Id(session.value));
    FindUnique(r.db.users, Id(session.value), i);
  }

  /** The body that sends a row's profile back unchanged: every column as a
      string or `null`, the year as its decimal digits. */
  function Echo(u: User): Update {
    Update(AsField(u.regimeFiscale), AsField(u.codiceAteco), AsField(u.settoreAttivita),
           YearField(u.annoApertura), AsField(u.partitaIva))
  }

  function AsField(v: Option<string>): Field {
    match v
    case None => Null
    case Some(s) => Str(s)
  }

  function YearField(v: Option<int>): Field {
    match v
    case None => Null
    case Some(n) => Str(Numbers.ShowInt(n))
  }

  /** A year written as its digits reads back as the same year. */
  lemma YearRoundTrip(v: Option<int>)
    ensures WriteYear(v, YearField(v)) == Some(v)
  {
    if v.Some? {
      Numbers.ParseIntShowInt(v.value);
    }
  }

  /** Merging a row's own profile back into it changes nothing. */
  lemma MergeEchoIsNoop(u: User)
    ensures Merge(u, Echo(u)) == Some(u)
  {
    YearRoundTrip(u.annoApertura);
    WriteEcho(u.regimeFiscale);
    WriteEcho(u.codiceAteco);
    WriteEcho(u.settoreAttivita);
    WriteEcho(u.partitaIva);
    var r := Merge(u, Echo(u));
    assert r.Some?;
    assert SameAccount(u, r.value);
  }

  lemma WriteEcho(v: Option<string>)
    ensures Write(v, AsField(v)) == v
  {
  }

  /** A client that sends back the profile `GET` returned, nulls as nulls and
      the year as its decimal digits, changes no column. */
  lemma PutOfEchoIsNoop(db: Db, session: string, i: int)
    requires Find(db.users, Id(session)) == Some(i)
    ensures Put(db, Some(session), Echo(db.users[i])).db == db
  {
    MergeEchoIsNoop(db.users[i]);
    assert db.users[i := db.users[i]] == db.users;
  }

  /** With the signed-in row present and a storable year, the update goes
      through: each column of that row follows its field of the body. */
  lemma PutWritesPresentFields(db: Db, session: string, b: Update, i: int)
    requires Wf(db) && 0 <= i < |db.users| && db.users[i].id == session
    requires WriteYear(db.users[i].annoApertura, b.annoApertura).Some?
    ensures var r := Put(db, Some(session), b);
      && r.status == 200
      && r.db.users[i].regimeFiscale == Write(db.users[i].regimeFiscale, b.regimeFiscale)
      && r.db.users[i].codiceAteco == Write(db.users[i].codiceAteco, b.codiceAteco)
      && r.db.users[i].settoreAttivita == Write(db.users[i].settoreAttivita, b.settoreAttivita)
      && r.db.users[i].annoApertura == WriteYear(db.users[i].annoApertura, b.annoApertura).value
      && r.db.users[i].partitaIva == Write(db.users[i].partitaIva, b.partitaIva)
  {
    assert HasKey(db.users[i], Id(session));
    FindUnique(db.users, Id(session), i);
  }

  /** The body the profile form sends after loading a row: each text column
      with `null` turned into `""`, the year as its digits or `""`. */
  function FormBody(p: Profile): Update {
    Update(Str(p.regimeFiscale.GetOr("")), Str(p.codiceAteco.GetOr("")), Str(p.settoreAttivita.GetOr("")),
           Str(if p.annoApertura.Some? then Numbers.ShowInt(p.annoApertura.value) else ""),
           Str(p.partitaIva.GetOr("")))
  }

  /** Saving the form unchanged keeps the year, but a text column that was
      null comes back as the empty string. */
  lemma FormRoundTrip(u: User)
    ensures Merge(u, FormBody(Projection(u)))
         == Some(u.(regimeFiscale := Some(u.regimeFiscale.GetOr("")),
                    codiceAteco := Some(u.codiceAteco.GetOr("")),
                    settoreAttivita := Some(u.settoreAttivita.GetOr("")),
                    partitaIva := Some(u.partitaIva.GetOr(""))))
  {
    var y := if u.annoApertura.Some? then Numbers.ShowInt(u.annoApertura.value) else "";
    if u.annoApertura.Some? {
      Numbers.ParseIntShowInt(u.annoApertura.value);
    }
    assert WriteYear(u.annoApertura, Str(y)) == Some(u.annoApertura);
  }

  /** An empty string is written, not skipped; in the year column it becomes
      `null`. */
  lemma EmptyStringIsWritten(u: User)
    ensures var b := Update(Str(""), Str(""), Str(""), Str(""), Str(""));
      Merge(u, b) == Some(u.(regimeFiscale := Some(""), codiceAteco := Some(""), settoreAttivita := Some(""),
                              annoApertura := None, partitaIva := Some("")))
  {
  }
}

=== FILE: questions.dfy ===
/** `POST /api/user/questions`: the admission checks (session, empty text,
    the free plan's daily limit), the web-search context and the order in
    which the AI providers are tried. The environment keys, the search call
    and the two providers are parameters; the clock is `now` together with the
    start of the current day, `midnight`. */
module Questions {
  import opened Wrappers
  import opened Store
  import Text
  import Numbers

  const FreePlan := "free"
  const PremiumPlan := "premium"

  /** Questions a free account may ask per day. */
  const FreeDailyLimit := 7

  /** The plan the route reads: the user's `piano`, or "free" when the row is
      missing or the column is null or empty. */
  function Plan(db: Db, userId: string): (r: string)
    ensures Find(db.users, Id(userId)).None? ==> r == FreePlan
    ensures Find(db.users, Id(userId)).Some? ==>
      var u := db.users[Find(db.users, Id(userId)).value];
      r == if Truthy(u.piano) then u.piano.value else FreePlan
  {
    match Find(db.users, Id(userId))
    case None => FreePlan
    case Some(i) => if Truthy(db.users[i].piano) then db.users[i].piano.value else FreePlan
  }

  predicate AskedToday(q: Question, userId: string, midnight: int) {
    q.userId == userId && q.createdAt >= midnight
  }

  /** The count the route asks the database for: the user's questions since
      midnight. */
  function TodayCount(qs: seq<Question>, userId: string, midnight: int): (n: nat)
    ensures n <= |qs|
    ensures n == 0 <==> forall k :: 0 <= k < |qs| ==> !AskedToday(qs[k], userId, midnight)
    ensures n == |qs| <==> forall k :: 0 <= k < |qs| ==> AskedToday(qs[k], userId, midnight)
  {
    if qs == [] then 0
    else
      var rest := TodayCount(qs[1..], userId, midnight);
      assert forall k :: 1 <= k < |qs| ==> qs[k] == qs[1..][k - 1];
      (if AskedToday(qs[0], userId, midnight) then 1 else 0) + rest
  }

  /** Adding one question raises the count by one exactly when it is the
      user's and was asked since midnight. */
  lemma {:induction false} TodayCountAppend(qs: seq<Question>, q: Question, userId: string, midnight: int)
    ensures TodayCount(qs + [q], userId, midnight)
         == TodayCount(qs, userId, midnight) + (if AskedToday(q, userId, midnight) then 1 else 0)
  {
    if qs == [] {
      assert [q][1..] == [];
    } else {
      assert (qs + [q])[1..] == qs[1..] + [q];
      TodayCountAppend(qs[1..], q, userId, midnight);
    }
  }

  // ---------------------------------------------------------------------------
  // Web context

  datatype SearchResult = SearchResult(title: string, description: string, url: string)

  /** What the search call gave: an exception, a non-ok reply, or the list of
      results (empty when the reply has none). */
  datatype Search = Threw | NotOk | Results(results: seq<SearchResult>)

  const MaxSnippets := 5

  /** The results the context quotes: the first five, or all when there are
      fewer. */
  function Quoted(rs: seq<SearchResult>): (r: seq<SearchResult>)
    ensures |r| <= MaxSnippets && |r| <= |rs| && r == rs[..|r|]
    ensures |rs| <= MaxSnippets ==> r == rs
    ensures |rs| > MaxSnippets ==> |r| == MaxSnippets
  {
    if |rs| <= MaxSnippets then rs else rs[..MaxSnippets]
  }

  /** The `i`-th quoted result, numbered from 1. */
  function Snippet(i: nat, r: SearchResult): string {
    "[" + Numbers.ShowNat(i + 1) + "] " + r.title + "\n" + r.description + "\nFonte: " + r.url
  }

  /** The snippets from position `i` on, joined by blank lines. */
  function JoinSnippets(rs: seq<SearchResult>, i: nat): string
    requires i <= |rs|
    decreases |rs| - i
  {
    if i == |rs| then ""
    else if i + 1 == |rs| then Snippet(i, rs[i])
    else Snippet(i, rs[i]) + "\n\n" + JoinSnippets(rs, i + 1)
  }

  /** The context block around the snippets. */
  function Framed(snippets: string): (r: string)
    ensures |r| > |snippets|
  {
    "\n\n--- CONTESTO WEB AGGIORNATO ---\n" + snippets + "\n--- FINE CONTESTO ---"
  }

  /** Whether the search yields any results to quote. */
  predicate HasResults(hasKey: bool, s: Search) {
    hasKey && s.Results? && s.results != []
  }

  /** `searchWeb`: empty without a key, on an exception, on a non-ok reply
      and when there are no results; otherwise the framed first five
      snippets. */
  function WebContext(hasKey: bool, s: Search): (r: string)
    ensures r == "" <==> !HasResults(hasKey, s)
    ensures HasResults(hasKey, s) ==> r == Framed(JoinSnippets(Quoted(s.results), 0))
  {
    if !hasKey then ""
    else match s
      case Threw => ""
      case NotOk => ""
      case Results(rs) => if rs == [] then "" else Framed(JoinSnippets(Quoted(rs), 0))
  }

  // ---------------------------------------------------------------------------
  // Providers

  /** What the providers are sent: the system prompt is fixed but for the
      premium instructions and the web context, followed by the question. */
  datatype Prompt = Prompt(premium: bool, webContext: string, question: string)

  /** Which secrets are configured. */
  datatype Keys = Keys(openai: bool, gemini: bool, brave: bool)

  /** A provider call gives the reply's content, or `None` when it threw or the
      reply had no content. */
  type Call = Prompt -> Option<string>

  datatype Provider = OpenAI | Gemini | Apology

  const ApologyText := "Mi scuso, il servizio AI è temporaneamente non disponibile. Riprova tra qualche minuto."

  /** A reply content the route accepts: present and not empty. */
  predicate Usable(c: Option<string>) {
    c.Some? && c.value != ""
  }

  /** The provider whose answer `callAI` returns: OpenAI for a premium user
      when its key is set and it answers, else Gemini when its key is set and
      it answers, else the fixed apology. */
  function Answering(p: Prompt, keys: Keys, openai: Call, gemini: Call): (r: Provider)
    ensures r == OpenAI <==> p.premium && keys.openai && Usable(openai(p))
    ensures r == Gemini <==> !(p.premium && keys.openai && Usable(openai(p))) && keys.gemini && Usable(gemini(p))
  {
    if p.premium && keys.openai && Usable(openai(p)) then OpenAI
    else if keys.gemini && Usable(gemini(p)) then Gemini
    else Apology
  }

  /** `callAI`: the answering provider's content; never empty. */
  function CallAI(p: Prompt, keys: Keys, openai: Call, gemini: Call): (r: string)
    ensures r != ""
    ensures Answering(p, keys, openai, gemini) == OpenAI ==> Some(r) == openai(p)
    ensures Answering(p, keys, openai, gemini) == Gemini ==> Some(r) == gemini(p)
    ensures Answering(p, keys, openai, gemini) == Apology ==> r == ApologyText
  {
    match Answering(p, keys, openai, gemini)
    case OpenAI => openai(p).value
    case Gemini => gemini(p).value
    case Apology => ApologyText
  }

  /** A user who is not premium is never answered by OpenAI, whatever the
      keys. */
  lemma OpenAIOnlyForPremium(p: Prompt, keys: Keys, openai: Call, gemini: Call)
    requires !p.premium
    ensures Answering(p, keys, openai, gemini) != OpenAI
  {
  }

  /** Without any provider key the answer is the apology. */
  lemma NoKeysApology(p: Prompt, openai: Call, gemini: Call, brave: bool)
    ensures CallAI(p, Keys(false, false, brave), openai, gemini) == ApologyText
  {
  }

  // ---------------------------------------------------------------------------
  // The route

  datatype Reply = Unauthenticated | Error(error: string) | LimitReached | Created(question: Question)

  /** The message that goes with `limitReached`. */
  function LimitMessage(): string {
    "Hai raggiunto il limite di " + Numbers.ShowNat(FreeDailyLimit) + " domande gratuite oggi. Passa a Premium per domande illimitate!"
  }

  /** The prompt the route builds for `text` asked by a user on `plan`. */
  function PromptFor(plan: string, text: string, keys: Keys, search: string -> Search): Prompt {
    Prompt(plan == PremiumPlan, WebContext(keys.brave, search(text)), text)
  }

  /** Whether the free plan's daily limit stops this question. */
  predicate Limited(db: Db, userId: string, midnight: int): (r: bool)
    ensures r ==> Plan(db, userId) == FreePlan && FreeDailyLimit <= |db.questions|
    ensures Find(db.users, Id(userId)).Some? && db.users[Find(db.users, Id(userId)).value].piano == Some(PremiumPlan) ==> !r
    ensures (forall k :: 0 <= k < |db.questions| ==> !AskedToday(db.questions[k], userId, midnight)) ==> !r
  {
    Plan(db, userId) == FreePlan && TodayCount(db.questions, userId, midnight) >= FreeDailyLimit
  }

  /** `POST`: 401 before anything else, 400 for missing or blank text, 429
      when the free plan has used up the day, otherwise the answer is stored
      with the text as sent and returned with 201. */
  function Post(db: Db, session: Option<string>, text: Option<string>, now: int, midnight: int,
                keys: Keys, search: string -> Search, openai: Call, gemini: Call): (r: Outcome<Reply>)
    ensures r.status == 401 <==> session.None?
    ensures r.status == 400 <==> session.Some? && (text.None? || Text.IsBlank(text.value))
    ensures r.status == 429 <==> session.Some? && text.Some? && !Text.IsBlank(text.value) && Limited(db, session.value, midnight)
    ensures r.status in {201, 400, 401, 429}
    ensures r.status != 201 ==> r.db == db
    ensures r.status == 201 ==>
      && session.Some? && text.Some?
      && r.db.users == db.users && r.db.resets == db.resets
      && |r.db.questions| == |db.questions| + 1 && r.db.questions[..|db.questions|] == db.questions
      && var q := r.db.questions[|db.questions|];
         && q.text == text.value && q.userId == session.value && q.createdAt == now
         && q.answer == CallAI(PromptFor(Plan(db, session.value), text.value, keys, search), keys, openai, gemini)
         && r.body == Created(q)
  {
    match session
    case None => Outcome(401, Unauthenticated, db)
    case Some(userId) =>
      if text.None? || Text.IsBlank(text.value) then
        Outcome(400, Error("Domanda vuota"), db)
      else if Limited(db, userId, midnight) then
        Outcome(429, LimitReached, db)
      else
        var p := PromptFor(Plan(db, userId), text.value, keys, search);
        var q := Question(text.value, CallAI(p, keys, openai, gemini), userId, now);
        Outcome(201, Created(q), db.(questions := db.questions + [q]))
  }

  /** An account whose plan is not "free" is never turned away by the limit. */
  lemma NonFreeNeverLimited(db: Db, userId: string, text: string, now: int, midnight: int,
                            keys: Keys, search: string -> Search, openai: Call, gemini: Call)
    requires Plan(db, userId) != FreePlan && !Text.IsBlank(text)
    ensures Post(db, Some(userId), Some(text), now, midnight, keys, search, openai, gemini).status == 201
  {
  }

  /** A free account never gets past seven questions in a day: if it had at
      most seven, it still has at most seven after any `POST`, and a stored
      question raises its count by exactly one. */
  lemma FreeDailyCap(db: Db, session: Option<string>, text: Option<string>, now: int, midnight: int,
                     keys: Keys, search: string -> Search, openai: Call, gemini: Call, userId: string)
    requires Plan(db, userId) == FreePlan && midnight <= now
    requires TodayCount(db.questions, userId, midnight) <= FreeDailyLimit
    ensures var r := Post(db, session, text, now, midnight, keys, search, openai, gemini);
      && TodayCount(r.db.questions, userId, midnight) <= FreeDailyLimit
      && (r.status == 201 && session == Some(userId) ==>
            TodayCount(r.db.questions, userId, midnight) == TodayCount(db.questions, userId, midnight) + 1)
  {
    var r := Post(db, session, text, now, midnight, keys, search, openai, gemini);
    if r.status == 201 {
      var q := r.db.questions[|db.questions|];
      assert r.db.questions == db.questions + [q];
      TodayCountAppend(db.questions, q, userId, midnight);
    }
  }

  /** Another user's question does not use up this user's allowance. */
  lemma OthersDoNotCount(db: Db, session: Option<string>, text: Option<string>, now: int, midnight: int,
                         keys: Keys, search: string -> Search, openai: Call, gemini: Call, userId: string)
    requires session != Some(userId)
    ensures TodayCount(Post(db, session, text, now, midnight, keys, search, openai, gemini).db.questions, userId, midnight)
         == TodayCount(db.questions, userId, midnight)
  {
    var r := Post(db, session, text, now, midnight, keys, search, openai, gemini);
    if r.status == 201 {
      var q := r.db.questions[|db.questions|];
      assert r.db.questions == db.questions + [q];
      TodayCountAppend(db.questions, q, userId, midnight);
    }
  }

  /** With results, the context quotes the first five of them, or all when
      there are fewer, and its snippets start with the first result, numbered 1. */
  lemma ContextQuotesAtMostFive(rs: seq<SearchResult>)
    requires rs != []
    ensures var q := Quoted(rs);
      && |q| == (if |rs| < MaxSnippets then |rs| else MaxSnippets) && q == rs[..|q|]
      && WebContext(true, Results(rs)) == Framed(JoinSnippets(q, 0))
      && Snippet(0, rs[0]) <= JoinSnippets(q, 0)
      && Snippet(0, rs[0]) == "[1] " + rs[0].title + "\n" + rs[0].description + "\nFonte: " + rs[0].url
  {
    var q := Quoted(rs);
    assert q[0] == rs[0];
    JoinStartsWithSnippet(q, 0);
    assert Numbers.ShowNat(1) == "1";
  }

  /** The joined snippets from `i` on begin with snippet `i`. */
  lemma JoinStartsWithSnippet(rs: seq<SearchResult>, i: nat)
    requires i < |rs|
    ensures Snippet(i, rs[i]) <= JoinSnippets(rs, i)
  {
    var a := Snippet(i, rs[i]);
    if i + 1 < |rs| {
      var b := "\n\n" + JoinSnippets(rs, i + 1);
      assert JoinSnippets(rs, i) == a + b;
      PrefixOfAppend(a, b);
    } else {
      assert JoinSnippets(rs, i) == a;
    }
  }

  lemma PrefixOfAppend(a: string, b: string)
    ensures a <= a + b
  {
    assert (a + b)[..|a|] == a;
  }
}

=== FILE: store.dfy ===
/** The rows the API routes read and write through the ORM, as an immutable
    value: the user table, the password-reset table and the question table.
    Every route is a function from one `Db` to the next. */
module Store {
  import opened Wrappers

  /** A row of the user table; the optional columns are nullable. */
  datatype User = User(
    id: string,
    name: Option<string>,
    email: string,
    password: string,
    piano: Option<string>,
    telegramId: Option<string>,
    regimeFiscale: Option<string>,
    codiceAteco: Option<string>,
    settoreAttivita: Option<string>,
    annoApertura: Option<int>,
    partitaIva: Option<string>)

  /** A row of the password-reset table; `expires` is in milliseconds. */
  datatype PasswordReset = PasswordReset(email: string, token: string, expires: int)

  /** A row of the question table; `createdAt` is in milliseconds. */
  datatype Question = Question(text: string, answer: string, userId: string, createdAt: int)

  /** The tables, each in insertion order. */
  datatype Db = Db(users: seq<User>, resets: seq<PasswordReset>, questions: seq<Question>)

  /** What a route hands back: the HTTP status, the JSON body and the tables
      after the route ran. */
  datatype Outcome<B> = Outcome(status: nat, body: B, db: Db)

  /** A body field that JavaScript treats as true: present, not null and not
      the empty string. */
  predicate Truthy(v: Option<string>) {
    v.Some? && v.value != ""
  }

  // ---------------------------------------------------------------------------
  // Unique columns

  /** The unique columns a row can be looked up by. */
  datatype Key = Id(id: string) | Email(email: string) | Telegram(telegramId: string)

  predicate HasKey(u: User, k: Key) {
    match k
    case Id(id) => u.id == id
    case Email(e) => u.email == e
    case Telegram(t) => u.telegramId == Some(t)
  }

  /** The user table keeps its key columns unique: no two rows share an id, an
      email or a linked Telegram id. */
  predicate UniqueRows(users: seq<User>) {
    forall i, j :: 0 <= i < j < |users| ==> RowsDiffer(users[i], users[j])
  }

  predicate RowsDiffer(u: User, v: User) {
    u.id != v.id && u.email != v.email && (u.telegramId.None? || u.telegramId != v.telegramId)
  }

  predicate Wf(db: Db) {
    UniqueRows(db.users)
  }

  /** `findUnique`: the position of the first row carrying the key, if any. */
  function Find(users: seq<User>, k: Key): (r: Option<nat>)
    ensures r.Some? ==> r.value < |users| && HasKey(users[r.value], k)
    ensures r.Some? ==> forall j :: 0 <= j < r.value ==> !HasKey(users[j], k)
    ensures r.None? <==> forall j :: 0 <= j < |users| ==> !HasKey(users[j], k)
  {
    if |users| == 0 then None
    else if HasKey(users[0], k) then Some(0)
    else match Find(users[1..], k)
      case None => None
      case Some(j) => Some(j + 1)
  }

  /** Rows that differ in every key column never share a key. */
  lemma DifferentRowsDifferentKeys(u: User, v: User, k: Key)
    requires RowsDiffer(u, v) && HasKey(u, k)
    ensures !HasKey(v, k)
  {
  }

  /** With unique key columns, `findUnique` finds the one row carrying the key,
      wherever it sits in the table. */
  lemma FindUnique(users: seq<User>, k: Key, i: int)
    requires UniqueRows(users)
    requires 0 <= i < |users| && HasKey(users[i], k)
    ensures Find(users, k) == Some(i)
  {
    var r := Find(users, k);
    if r.value < i {
      DifferentRowsDifferentKeys(users[r.value], users[i], k);
    }
  }

  /** Replacing one row by a row with the same id and email, and a Telegram id
      no other row holds, keeps the key columns unique. */
  lemma UpdateKeepsUnique(users: seq<User>, i: int, v: User)
    requires UniqueRows(users) && 0 <= i < |users|
    requires v.id == users[i].id && v.email == users[i].email
    requires v.telegramId.Some? ==> forall j :: 0 <= j < |users| && j != i ==> users[j].telegramId != v.telegramId
    ensures UniqueRows(users[i := v])
  {
    var w := users[i := v];
    forall a, b | 0 <= a < b < |w|
      ensures RowsDiffer(w[a], w[b])
    {
      if a == i {
        assert RowsDiffer(users[a], users[b]);
      } else if b == i {
        assert RowsDiffer(users[a], users[b]);
      }
    }
  }

  /** Appending a row whose id and email are new, and which has no Telegram id,
      keeps the key columns unique. */
  lemma AppendKeepsUnique(users: seq<User>, v: User)
    requires UniqueRows(users)
    requires Find(users, Id(v.id)).None? && Find(users, Email(v.email)).None?
    requires v.telegramId.None?
    ensures UniqueRows(users + [v])
  {
    var w := users + [v];
    forall a, b | 0 <= a < b < |w|
      ensures RowsDiffer(w[a], w[b])
    {
      if b == |users| {
        assert !HasKey(users[a], Id(v.id)) && !HasKey(users[a], Email(v.email));
      } else {
        assert RowsDiffer(users[a], users[b]);
      }
    }
  }
}

=== FILE: tax.dfy ===
/** The calculation engine of the tax simulator page: the ATECO profitability
    table, the three-band progressive IRPEF scale, the two INPS contribution
    schemes, the flat-rate ("forfetario") and standard ("ordinario") regime
    calculators, and the recommendation between them. Money is an exact
    rational (`real`). */
module TaxEngine {
  import opened Wrappers

  /** The contribution scheme: INPS "gestione separata" or "artigiani e commercianti". */
  datatype InpsType = Separata | Artigiani

  datatype AtecoCategory = AtecoCategory(caption: string, key: string, coeff: real)

  /** The nine activity categories offered by the simulator, in display order. */
  const AtecoCategories: seq<AtecoCategory> := [
    AtecoCategory("Commercio (47.xx)", "commercio", 0.40),
    AtecoCategory("Alloggio e ristorazione (55-56)", "alloggio", 0.40),
    AtecoCategory("Intermediari del commercio (46.1x)", "intermediari", 0.62),
    AtecoCategory("Servizi professionali/tecnici (62-74)", "servizi", 0.78),
    AtecoCategory("Costruzioni (41-43)", "costruzioni", 0.86),
    AtecoCategory("Commercio ambulante alimentari", "ambulante_food", 0.40),
    AtecoCategory("Commercio ambulante non alimentari", "ambulante_nonfood", 0.54),
    AtecoCategory("Attività professionali (con cassa)", "professionisti_cassa", 0.78),
    AtecoCategory("Altre attività economiche", "altre", 0.67)
  ]

  /** The category the page selects before the user picks one ("servizi"). */
  const DefaultAtecoIndex: nat := 3

  /** The profitability coefficient of the category at `idx`: a ratio strictly
      between 0 and 1, drawn from the six values the table uses. */
  function Coefficient(idx: nat): (c: real)
    requires idx < |AtecoCategories|
    ensures 0.0 < c < 1.0
    ensures c in {0.40, 0.54, 0.62, 0.67, 0.78, 0.86}
    ensures idx == DefaultAtecoIndex ==> c == 0.78
  {
    AtecoCategories[idx].coeff
  }

  function Max(a: real, b: real): (m: real)
    ensures m >= a && m >= b
    ensures m == a || m == b
  {
    if a >= b then a else b
  }

  function Abs(x: real): (a: real)
    ensures a >= 0.0
    ensures a == x || a == -x
  {
    if x >= 0.0 then x else -x
  }

  // ---------------------------------------------------------------------------
  // IRPEF

  /** Progressive income tax, computed as the page does: the part above 50000
      at 43%, then the part above 28000 of what is left at 35%, then the rest
      at 23%. Nothing is due on a non-positive base, and for a non-negative
      base the tax lies between the lowest and the highest marginal rate. */
  function Irpef(imponibile: real): (tax: real)
    ensures imponibile <= 0.0 ==> tax == 0.0
    ensures imponibile >= 0.0 ==> 0.23 * imponibile <= tax <= 0.43 * imponibile
  {
    if imponibile <= 0.0 then 0.0
    else
      var top := if imponibile > 50000.0 then (imponibile - 50000.0) * 0.43 else 0.0;
      var rest := if imponibile > 50000.0 then 50000.0 else imponibile;
      var middle := if rest > 28000.0 then (rest - 28000.0) * 0.35 else 0.0;
      var low := if rest > 28000.0 then 28000.0 else rest;
      top + middle + low * 0.23
  }

  /** A band of a progressive scale: income from `lower` up to the next band's
      lower bound (without limit for the last band) is taxed at `rate`. */
  datatype Band = Band(lower: real, rate: real)

  /** The IRPEF scale as a table of bands. */
  const IrpefBands: seq<Band> := [Band(0.0, 0.23), Band(28000.0, 0.35), Band(50000.0, 0.43)]

  /** The part of `x` that falls in band `i`. */
  function BandPortion(x: real, bands: seq<Band>, i: nat): real
    requires i < |bands|
  {
    var lo := bands[i].lower;
    if x <= lo then 0.0
    else if i + 1 < |bands| && x > bands[i + 1].lower then bands[i + 1].lower - lo
    else x - lo
  }

  /** The tax of a progressive scale, summed band by band from band `i` upward. */
  function MarginalTax(x: real, bands: seq<Band>, i: nat): real
    requires i <= |bands|
    decreases |bands| - i
  {
    if i == |bands| then 0.0
    else BandPortion(x, bands, i) * bands[i].rate + MarginalTax(x, bands, i + 1)
  }

  /** The sequential-subtraction computation equals the band-by-band sum of the
      IRPEF table, for every base, including the band boundaries. */
  lemma IrpefIsMarginalSum(x: real)
    ensures Irpef(x) == MarginalTax(x, IrpefBands, 0)
  {
    var b := IrpefBands;
    assert MarginalTax(x, b, 3) == 0.0;
    assert MarginalTax(x, b, 2) == BandPortion(x, b, 2) * 0.43;
    assert MarginalTax(x, b, 1) == BandPortion(x, b, 1) * 0.35 + BandPortion(x, b, 2) * 0.43;
    assert MarginalTax(x, b, 0)
        == BandPortion(x, b, 0) * 0.23 + BandPortion(x, b, 1) * 0.35 + BandPortion(x, b, 2) * 0.43;
  }

  /** The values at the band boundaries and one point above them; a base of
      exactly 28000 is taxed entirely at 23%. */
  lemma IrpefBoundaryValues()
    ensures Irpef(28000.0) == 28000.0 * 0.23 == 6440.0
    ensures Irpef(50000.0) == 6440.0 + 22000.0 * 0.35 == 14140.0
    ensures Irpef(60000.0) == 14140.0 + 10000.0 * 0.43 == 18440.0
  {
  }

  /** Between two non-negative bases, the tax grows by at least 23% and at most
      43% of the difference: IRPEF is continuous and non-decreasing. */
  lemma IrpefMarginalRates(x: real, y: real)
    requires 0.0 <= x <= y
    ensures 0.23 * (y - x) <= Irpef(y) - Irpef(x) <= 0.43 * (y - x)
  {
  }

  lemma IrpefMonotone(x: real, y: real)
    requires x <= y
    ensures Irpef(x) <= Irpef(y)
  {
    if 0.0 <= x {
      IrpefMarginalRates(x, y);
    }
  }

  // ---------------------------------------------------------------------------
  // INPS

  /** Social contributions on a taxable amount: 26.07% under the separate
      scheme; 24% with a floor of 4200 for artisans and traders, so the latter
      is never below 4200 whatever the amount. */
  function Inps(imponibile: real, t: InpsType): (c: real)
    ensures t == Separata ==> c == imponibile * 0.2607
    ensures t == Artigiani ==> c >= 4200.0 && c >= imponibile * 0.24
    ensures t == Artigiani ==> c == 4200.0 || c == imponibile * 0.24
  {
    if t == Separata then imponibile * 0.2607 else Max(4200.0, imponibile * 0.24)
  }

  lemma InpsMonotone(x: real, y: real, t: InpsType)
    requires x <= y
    ensures Inps(x, t) <= Inps(y, t)
  {
  }

  // ---------------------------------------------------------------------------
  // The two regimes

  /** One regime's breakdown, with the page's field names. */
  datatype RegimeResult = RegimeResult(
    imponibile: real,
    imponibileFiscale: real,
    imposta: real,
    contributiInps: real,
    totaleTasse: real,
    netto: real)

  /** The accounting both regimes share: contributions on the taxable income,
      a fiscal base that is that income less contributions but never negative,
      a total burden of tax plus contributions, and a net income that together
      with the burden gives back the revenue. */
  ghost predicate Settled(r: RegimeResult, fatturato: real, t: InpsType) {
    && r.contributiInps == Inps(r.imponibile, t)
    && r.imponibileFiscale >= 0.0
    && r.imponibileFiscale == Max(0.0, r.imponibile - r.contributiInps)
    && r.totaleTasse == r.imposta + r.contributiInps
    && r.netto + r.totaleTasse == fatturato
  }

  /** The flat-rate regime: taxable income is revenue times the ATECO
      coefficient, and the substitute tax is the rate applied to the fiscal base. */
  function CalcForfetario(fatturato: real, coeff: real, aliquota: real, t: InpsType): (r: RegimeResult)
    ensures r.contributiInps == Inps(r.imponibile, t)
    ensures r.imponibileFiscale >= 0.0
    ensures r.imponibileFiscale == Max(0.0, r.imponibile - r.contributiInps)
    ensures r.totaleTasse == r.imposta + r.contributiInps
    ensures r.netto + r.totaleTasse == fatturato
    ensures r.imponibile == fatturato * coeff
    ensures r.imposta == r.imponibileFiscale * aliquota
  {
    var imponibile := fatturato * coeff;
    var contributiInps := Inps(imponibile, t);
    var imponibileFiscale := Max(0.0, imponibile - contributiInps);
    var imposta := imponibileFiscale * aliquota;
    var totaleTasse := imposta + contributiInps;
    RegimeResult(imponibile, imponibileFiscale, imposta, contributiInps, totaleTasse, fatturato - totaleTasse)
  }

  /** The standard regime: taxable income is revenue less deductible costs, never
      negative, and the tax is IRPEF on the fiscal base. */
  function CalcOrdinario(fatturato: real, costiDeducibili: real, t: InpsType): (r: RegimeResult)
    ensures r.contributiInps == Inps(r.imponibile, t)
    ensures r.imponibileFiscale >= 0.0
    ensures r.imponibileFiscale == Max(0.0, r.imponibile - r.contributiInps)
    ensures r.totaleTasse == r.imposta + r.contributiInps
    ensures r.netto + r.totaleTasse == fatturato
    ensures r.imponibile == Max(0.0, fatturato - costiDeducibili)
    ensures r.imposta == Irpef(r.imponibileFiscale)
  {
    var imponibileLordo := Max(0.0, fatturato - costiDeducibili);
    var contributiInps := Inps(imponibileLordo, t);
    var imponibileFiscale := Max(0.0, imponibileLordo - contributiInps);
    var imposta := Irpef(imponibileFiscale);
    var totaleTasse := imposta + contributiInps;
    RegimeResult(imponibileLordo, imponibileFiscale, imposta, contributiInps, totaleTasse, fatturato - totaleTasse)
  }

  /** A higher substitute rate, everything else fixed, never raises the
      flat-rate net income; in particular 15% never beats 5%. */
  lemma ForfetarioRateMonotone(fatturato: real, coeff: real, a1: real, a2: real, t: InpsType)
    requires a1 <= a2
    ensures CalcForfetario(fatturato, coeff, a2, t).netto <= CalcForfetario(fatturato, coeff, a1, t).netto
  {
    var r1 := CalcForfetario(fatturato, coeff, a1, t);
    var r2 := CalcForfetario(fatturato, coeff, a2, t);
    assert r1.imponibileFiscale == r2.imponibileFiscale;
    MulMonotone(r1.imponibileFiscale, a1, a2);
  }

  lemma MulMonotone(base: real, a1: real, a2: real)
    requires base >= 0.0 && a1 <= a2
    ensures base * a1 <= base * a2
  {
    assert base * a2 - base * a1 == base * (a2 - a1);
  }

  /** Under the separate scheme, with a coefficient and a rate between 0 and 1,
      the flat-rate net income of a non-negative revenue is never negative. */
  lemma ForfetarioSeparataNettoNonNegative(fatturato: real, coeff: real, aliquota: real)
    requires fatturato >= 0.0
    requires 0.0 <= coeff <= 1.0
    requires 0.0 <= aliquota <= 1.0
    ensures CalcForfetario(fatturato, coeff, aliquota, Separata).netto >= 0.0
  {
    var r := CalcForfetario(fatturato, coeff, aliquota, Separata);
    ScaleDown(fatturato, coeff);
    assert r.contributiInps == Inps(r.imponibile, Separata) == r.imponibile * 0.2607;
    ScaledWithin(r.imposta, r.imponibileFiscale, aliquota);
    NettoAtLeastRevenueLessIncome(r, fatturato);
  }

  /** A non-negative amount scaled by a ratio between 0 and 1 stays between 0 and the amount. */
  lemma ScaleDown(x: real, k: real)
    requires x >= 0.0 && 0.0 <= k <= 1.0
    ensures 0.0 <= x * k <= x
  {
    MulMonotone(x, k, 1.0);
    MulMonotone(x, 0.0, k);
  }

  lemma ScaledWithin(y: real, x: real, k: real)
    requires y == x * k
    requires x >= 0.0 && 0.0 <= k <= 1.0
    ensures 0.0 <= y <= x
  {
    ScaleDown(x, k);
  }

  /** When the tax does not exceed the fiscal base and the contributions do not
      exceed the taxable income, the burden is at most the taxable income. */
  lemma NettoAtLeastRevenueLessIncome(r: RegimeResult, fatturato: real)
    requires 0.0 <= r.contributiInps <= r.imponibile <= fatturato
    requires r.imponibileFiscale == r.imponibile - r.contributiInps
    requires r.imposta <= r.imponibileFiscale
    requires r.totaleTasse == r.imposta + r.contributiInps
    requires r.netto + r.totaleTasse == fatturato
    ensures r.netto >= fatturato - r.imponibile >= 0.0
  {
  }

  /** The 4200 floor of the artisans' scheme can exceed the revenue, so the
      flat-rate net income can be negative: the page clamps it to zero only when
      drawing the bar. */
  lemma ForfetarioNettoCanBeNegative()
    ensures CalcForfetario(1000.0, 0.78, 0.15, Artigiani).netto == -3200.0
  {
    var r := CalcForfetario(1000.0, 0.78, 0.15, Artigiani);
    assert r.imponibile == 780.0 by {
      assert 1000.0 * 0.78 == 780.0;
    }
    assert r.contributiInps == 4200.0 by {
      assert Max(4200.0, 780.0 * 0.24) == 4200.0;
    }
    assert r.imposta == 0.0 by {
      assert Max(0.0, 780.0 - 4200.0) == 0.0;
    }
  }

  /** The same holds of the standard regime. */
  lemma OrdinarioNettoCanBeNegative()
    ensures CalcOrdinario(1000.0, 0.0, Artigiani).netto == -3200.0
  {
    var r := CalcOrdinario(1000.0, 0.0, Artigiani);
    assert r.imponibile == 1000.0;
    assert r.contributiInps == 4200.0 by {
      assert Max(4200.0, 1000.0 * 0.24) == 4200.0;
    }
    assert r.imposta == 0.0 by {
      assert Max(0.0, 1000.0 - 4200.0) == 0.0;
    }
  }

  /** The total burden of the standard regime as a function of its taxable income. */
  lemma {:induction false} OrdinarioBurdenMonotone(b1: real, b2: real, t: InpsType)
    requires 0.0 <= b1 <= b2
    ensures Inps(b1, t) + Irpef(Max(0.0, b1 - Inps(b1, t)))
         <= Inps(b2, t) + Irpef(Max(0.0, b2 - Inps(b2, t)))
  {
    InpsMonotone(b1, b2, t);
    assert b1 - Inps(b1, t) <= b2 - Inps(b2, t);
    IrpefMonotone(Max(0.0, b1 - Inps(b1, t)), Max(0.0, b2 - Inps(b2, t)));
  }

  /** More deductible costs never lower the standard-regime net income. */
  lemma OrdinarioCostsMonotone(fatturato: real, c1: real, c2: real, t: InpsType)
    requires c1 <= c2
    ensures CalcOrdinario(fatturato, c1, t).netto <= CalcOrdinario(fatturato, c2, t).netto
  {
    var r1 := CalcOrdinario(fatturato, c1, t);
    var r2 := CalcOrdinario(fatturato, c2, t);
    OrdinarioBurdenMonotone(r2.imponibile, r1.imponibile, t);
  }

  /** Flat rate, 50000 revenue, "servizi" coefficient 0.78, 15%, separate scheme. */
  lemma ForfetarioWorkedExample()
    ensures var r := CalcForfetario(50000.0, 0.78, 0.15, Separata);
      && r.imponibile == 39000.0
      && r.contributiInps == 10167.3
      && r.imponibileFiscale == 28832.7
      && r.imposta == 4324.905
      && r.totaleTasse == 14492.205
      && r.netto == 35507.795
  {
  }

  /** Standard regime, 50000 revenue, 15000 costs, artisans' scheme. */
  lemma OrdinarioWorkedExample()
    ensures var r := CalcOrdinario(50000.0, 15000.0, Artigiani);
      && r.imponibile == 35000.0
      && r.contributiInps == 8400.0
      && r.imponibileFiscale == 26600.0
      && r.imposta == 6118.0
      && r.totaleTasse == 14518.0
      && r.netto == 35482.0
  {
    assert Max(0.0, 50000.0 - 15000.0) == 35000.0;
    assert Inps(35000.0, Artigiani) == 8400.0;
    assert Max(0.0, 35000.0 - 8400.0) == 26600.0;
    assert Irpef(26600.0) == 6118.0;
  }

  // ---------------------------------------------------------------------------
  // Recommendation and the page's inputs

  datatype Regime = Forfetario | Ordinario

  /** The recommended regime and the yearly saving it is shown with. */
  datatype Advice = Advice(regime: Regime, saving: real)

  function Netto(forf: RegimeResult, ord: RegimeResult, regime: Regime): real {
    if regime == Forfetario then forf.netto else ord.netto
  }

  /** The flat-rate regime is recommended only when its net income is strictly
      higher, so a tie goes to the standard regime; the recommended regime is
      never the worse one, and the saving is the gap between the two. */
  function Conviene(forf: RegimeResult, ord: RegimeResult): (a: Advice)
    ensures a.regime == Forfetario <==> forf.netto > ord.netto
    ensures Netto(forf, ord, a.regime) >= forf.netto && Netto(forf, ord, a.regime) >= ord.netto
    ensures a.saving >= 0.0
    ensures a.saving == Netto(forf, ord, a.regime) - Netto(forf, ord, if a.regime == Forfetario then Ordinario else Forfetario)
  {
    Advice(if forf.netto > ord.netto then Forfetario else Ordinario, Abs(forf.netto - ord.netto))
  }

  /** Both regimes computed and compared. */
  datatype Outcome = Outcome(forf: RegimeResult, ord: RegimeResult, advice: Advice)

  /** `parseFloat(text) || 0`: text that does not parse (`None`, NaN) counts as 0. */
  function Coerce(parsed: Option<real>): real {
    parsed.GetOr(0.0)
  }

  /** The page's result: present exactly when results were requested and the
      coerced revenue is positive; then both regimes use the same revenue and the
      same contribution scheme, the flat rate uses the selected category and
      rate (as a fraction), and the advice compares their net incomes. */
  function Simulate(
    showResults: bool,
    fatturato: Option<real>,
    atecoIdx: nat,
    aliquotaPct: int,
    t: InpsType,
    costi: Option<real>): (r: Option<Outcome>)
    requires atecoIdx < |AtecoCategories|
    requires aliquotaPct == 5 || aliquotaPct == 15
    ensures r.Some? <==> showResults && Coerce(fatturato) > 0.0
    ensures r.Some? ==>
      && r.value.forf == CalcForfetario(Coerce(fatturato), Coefficient(atecoIdx), aliquotaPct as real / 100.0, t)
      && r.value.ord == CalcOrdinario(Coerce(fatturato), Coerce(costi), t)
      && r.value.advice == Conviene(r.value.forf, r.value.ord)
    ensures r.Some? ==> Settled(r.value.forf, Coerce(fatturato), t) && Settled(r.value.ord, Coerce(fatturato), t)
  {
    var fat := Coerce(fatturato);
    if !showResults || fat <= 0.0 then None
    else
      var forf := CalcForfetario(fat, AtecoCategories[atecoIdx].coeff, aliquotaPct as real / 100.0, t);
      var ord := CalcOrdinario(fat, Coerce(costi), t);
      Some(Outcome(forf, ord, Conviene(forf, ord)))
  }
}

=== FILE: telegram.dfy ===
/** `POST /api/user/link-telegram`: links the signed-in account to a Telegram
    id and, when the bot's premium list names that id, upgrades the plan. The
    list file is a parameter: absent, unreadable, or its parsed JSON. */
module LinkTelegram {
  import opened Wrappers
  import opened Store
  import Text
  import Numbers

  /** A parsed JSON value; numbers are the integer ones. */
  datatype Json =
    | JNull
    | JBool(b: bool)
    | JNum(n: int)
    | JStr(s: string)
    | JArray(items: seq<Json>)
    | JObject(fields: map<string, Json>)

  /** The premium list as the route finds it on disk. */
  datatype PremiumFile = NoFile | Unreadable | Parsed(data: Json)

  /** JavaScript truthiness of a property read; `None` is `undefined`. */
  predicate JsTruthy(v: Option<Json>) {
    match v
    case None => false
    case Some(JNull) => false
    case Some(JBool(b)) => b
    case Some(JNum(n)) => n != 0
    case Some(JStr(s)) => s != ""
    case Some(_) => true
  }

  /** `x?.active`: the `active` property of an object, `undefined` for
      anything else. */
  function Active(x: Option<Json>): (r: Option<Json>)
    ensures r.Some? ==> x.Some? && x.value.JObject? && "active" in x.value.fields
  {
    match x
    case Some(JObject(f)) => if "active" in f then Some(f["active"]) else None
    case _ => None
  }

  function Lookup(f: map<string, Json>, key: string): Option<Json> {
    if key in f then Some(f[key]) else None
  }

  /** The property name `data[Number(id)]` reads: the number written back in
      decimal, or `"NaN"`. */
  function NumberKey(id: string): string {
    match Numbers.NumberOf(id)
    case Some(n) => Numbers.ShowInt(n)
    case None => "NaN"
  }

  /** The premium test: an array holding the id as a number or as a string,
      or an object whose entry for the id (under the text or under the number)
      has a truthy `active`; a missing or unreadable file, or any other JSON,
      says no. */
  predicate IsPremium(file: PremiumFile, id: string): (r: bool)
    ensures r ==> file.Parsed? && (file.data.JArray? || file.data.JObject?)
    ensures file.Parsed? && file.data.JArray? ==>
      (r <==> exists k :: 0 <= k < |file.data.items| && NamesId(file.data.items[k], id))
    ensures r && file.data.JObject? ==> id in file.data.fields || NumberKey(id) in file.data.fields
    ensures file.Parsed? && file.data.JObject? ==>
      (r <==> JsTruthy(Active(Lookup(file.data.fields, id))) || JsTruthy(Active(Lookup(file.data.fields, NumberKey(id)))))
  {
    match file
    case Parsed(JArray(items)) =>
      (Numbers.NumberOf(id).Some? && JNum(Numbers.NumberOf(id).value) in items) || JStr(id) in items
    case Parsed(JObject(f)) =>
      JsTruthy(Active(Lookup(f, id))) || JsTruthy(Active(Lookup(f, NumberKey(id))))
    case _ => false
  }

  /** `includes` on one element: it is the id's text, or a number equal to
      `Number(id)`. */
  predicate NamesId(x: Json, id: string) {
    x == JStr(id) || (x.JNum? && Numbers.NumberOf(id) == Some(x.n))
  }

  /** A list written by the bot with numeric ids names every spelling of the
      id that `Number()` reads as that number. */
  lemma NumericIdInArray(items: seq<Json>, n: int)
    requires JNum(n) in items
    ensures IsPremium(Parsed(JArray(items)), Numbers.ShowInt(n))
  {
    Numbers.NumberOfShowInt(n);
  }

  /** A list holding the id as a string names exactly that text. */
  lemma StringIdInArray(items: seq<Json>, id: string)
    requires JStr(id) in items
    ensures IsPremium(Parsed(JArray(items)), id)
  {
  }

  /** Without a readable list nobody is premium. */
  lemma NoListNoPremium(id: string)
    ensures !IsPremium(NoFile, id) && !IsPremium(Unreadable, id)
  {
  }

  /** An object keyed by the decimal id, with a truthy `active`, names the id. */
  lemma ActiveEntryIsPremium(f: map<string, Json>, n: int, entry: map<string, Json>)
    requires Numbers.ShowInt(n) in f && f[Numbers.ShowInt(n)] == JObject(entry)
    requires "active" in entry && JsTruthy(Some(entry["active"]))
    ensures IsPremium(Parsed(JObject(f)), Numbers.ShowInt(n))
  {
  }

  /** An id spelled otherwise, such as "0123" or "+5", reaches the entry under
      the decimal key of the number `Number()` reads from it. */
  lemma NumberKeyEntryIsPremium(f: map<string, Json>, id: string, n: int, entry: map<string, Json>)
    requires Numbers.NumberOf(id) == Some(n)
    requires Numbers.ShowInt(n) in f && f[Numbers.ShowInt(n)] == JObject(entry)
    requires "active" in entry && JsTruthy(Some(entry["active"]))
    ensures IsPremium(Parsed(JObject(f)), id)
  {
    assert NumberKey(id) == Numbers.ShowInt(n);
  }

  /** An entry whose `active` is false, 0, "" or null does not count, under
      either key. */
  lemma InactiveEntryIsNot(f: map<string, Json>, id: string)
    requires forall k :: k in f ==> !JsTruthy(Active(Some(f[k])))
    ensures !IsPremium(Parsed(JObject(f)), id)
  {
  }

  /** The reply; a successful link carries the premium flag, and the page
      shows `LinkMessage` of it. */
  datatype Reply = Unauthenticated | Error(error: string) | Linked(premium: bool)

  const PremiumPlan := "premium"

  function LinkMessage(premium: bool): string {
    if premium then "\U{2705} Account collegato! Sei Premium su Telegram, le funzionalità Premium sono ora attive anche sul sito!"
    else "\U{2705} Account Telegram collegato. Per sbloccare le funzionalità Premium, attiva l'abbonamento sul bot @Taxami_bot."
  }

  /** The plan after linking: upgraded when the id is premium, kept otherwise. */
  function NewPlan(piano: Option<string>, premium: bool): (r: Option<string>)
    ensures premium ==> r == Some(PremiumPlan)
    ensures !premium ==> r == piano
  {
    if premium then Some(PremiumPlan) else piano
  }

  /** Another account already holds the Telegram id. */
  predicate HeldByOther(users: seq<User>, id: string, userId: string) {
    Find(users, Telegram(id)).Some? && users[Find(users, Telegram(id)).value].id != userId
  }

  /** The row `userId` after linking `id`, with the premium answer. */
  function LinkedRow(u: User, id: string, premium: bool): User {
    u.(telegramId := Some(id), piano := NewPlan(u.piano, premium))
  }

  /** The route once the id is trimmed and the premium list consulted: the
      conflict check, then the update of the signed-in row, which throws
      (500, nothing written) when the row is missing. */
  function Attach(db: Db, userId: string, id: string, premium: bool): (r: Outcome<Reply>)
    ensures r.status == 409 <==> HeldByOther(db.users, id, userId)
    ensures r.status == 500 <==> !HeldByOther(db.users, id, userId) && Find(db.users, Id(userId)).None?
    ensures r.status in {200, 409, 500}
    ensures r.status != 200 ==> r.db == db && r.body.Error?
    ensures r.status == 200 ==>
      && Find(db.users, Id(userId)).Some?
      && var i := Find(db.users, Id(userId)).value;
         && r.db == db.(users := db.users[i := LinkedRow(db.users[i], id, premium)])
         && r.body == Linked(premium)
  {
    if HeldByOther(db.users, id, userId) then
      Outcome(409, Error("Questo Telegram ID è già collegato a un altro account"), db)
    else
      match Find(db.users, Id(userId))
      case None => Outcome(500, Error("Errore interno"), db)
      case Some(i) => Outcome(200, Linked(premium), db.(users := db.users[i := LinkedRow(db.users[i], id, premium)]))
  }

  /** The route, for the signed-in user's id `session` and the body's
      `telegramId`: 401, then 400 for a missing or blank id, then the trimmed
      id is attached with the premium list's answer for it. */
  function Link(db: Db, session: Option<string>, telegramId: Option<string>, file: PremiumFile): (r: Outcome<Reply>)
    ensures r.status == 401 <==> session.None?
    ensures r.status == 400 <==> session.Some? && (telegramId.None? || Text.IsBlank(telegramId.value))
    ensures r.status == 409 <==> session.Some? && telegramId.Some? && !Text.IsBlank(telegramId.value)
                                 && HeldByOther(db.users, Text.Trim(telegramId.value), session.value)
    ensures r.status == 500 <==> session.Some? && telegramId.Some? && !Text.IsBlank(telegramId.value)
                                 && !HeldByOther(db.users, Text.Trim(telegramId.value), session.value)
                                 && Find(db.users, Id(session.value)).None?
    ensures r.status in {200, 400, 401, 409, 500}
    ensures r.status != 200 ==> r.db == db
    ensures r.status == 200 ==>
      && session.Some? && telegramId.Some?
      && Find(db.users, Id(session.value)).Some?
      && var i := Find(db.users, Id(session.value)).value;
         var id := Text.Trim(telegramId.value);
         && r.db == db.(users := db.users[i := LinkedRow(db.users[i], id, IsPremium(file, id))])
         && r.body == Linked(IsPremium(file, id))
  {
    match session
    case None => Outcome(401, Unauthenticated, db)
    case Some(userId) =>
      if telegramId.None? || Text.IsBlank(telegramId.value) then
        Outcome(400, Error("Telegram ID obbligatorio"), db)
      else
        var id := Text.Trim(telegramId.value);
        Attach(db, userId, id, IsPremium(file, id))
  }

  /** With unique Telegram ids, the conflict check refuses exactly the ids
      that some other account holds. */
  lemma ConflictIffOtherHolder(db: Db, userId: string, id: string)
    requires Wf(db)
    ensures HeldByOther(db.users, id, userId) <==>
      exists j :: 0 <= j < |db.users| && db.users[j].telegramId == Some(id) && db.users[j].id != userId
  {
    if j :| 0 <= j < |db.users| && db.users[j].telegramId == Some(id) && db.users[j].id != userId {
      assert HasKey(db.users[j], Telegram(id));
      FindUnique(db.users, Telegram(id), j);
    }
  }

  /** Linking keeps Telegram ids (and ids and emails) unique. */
  lemma LinkKeepsUnique(db: Db, session: Option<string>, telegramId: Option<string>, file: PremiumFile)
    requires Wf(db)
    ensures Wf(Link(db, session, telegramId, file).db)
  {
    var r := Link(db, session, telegramId, file);
    if r.status == 200 {
      var i := Find(db.users, Id(session.value)).value;
      var id := Text.Trim(telegramId.value);
      var u := LinkedRow(db.users[i], id, IsPremium(file, id));
      ConflictIffOtherHolder(db, session.value, id);
      forall j | 0 <= j < |db.users| && j != i
        ensures db.users[j].telegramId != Some(id)
      {
        if j < i {
          assert RowsDiffer(db.users[j], db.users[i]);
        } else {
          assert RowsDiffer(db.users[i], db.users[j]);
        }
      }
      UpdateKeepsUnique(db.users, i, u);
    }
  }

  /** A plan is never downgraded: whatever the premium list says, an account
      on the premium plan stays on it. */
  lemma LinkNeverDowngrades(db: Db, session: Option<string>, telegramId: Option<string>, file: PremiumFile, j: int)
    requires 0 <= j < |db.users| && db.users[j].piano == Some(PremiumPlan)
    ensures var r := Link(db, session, telegramId, file);
      |r.db.users| == |db.users| && r.db.users[j].piano == Some(PremiumPlan)
  {
  }

  /** A signed-in account linking a non-blank id that no other account holds
      gets it, and the plan becomes premium exactly when the list names the id
      (a premium plan stays premium regardless). */
  lemma LinkUpgradesPremium(db: Db, userId: string, telegramId: string, file: PremiumFile, i: int)
    requires Wf(db) && 0 <= i < |db.users| && db.users[i].id == userId
    requires !Text.IsBlank(telegramId)
    requires forall j :: 0 <= j < |db.users| && j != i ==> db.users[j].telegramId != Some(Text.Trim(telegramId))
    ensures var r := Link(db, Some(userId), Some(telegramId), file);
      var id := Text.Trim(telegramId);
      && r.status == 200
      && r.db.users[i].telegramId == Some(id)
      && (IsPremium(file, id) ==> r.db.users[i].piano == Some(PremiumPlan))
      && (!IsPremium(file, id) ==> r.db.users[i].piano == db.users[i].piano)
  {
    var id := Text.Trim(telegramId);
    ConflictIffOtherHolder(db, userId, id);
    assert HasKey(db.users[i], Id(userId));
    FindUnique(db.users, Id(userId), i);
  }

  /** Linking changes one row only: every other row, the resets and the
      questions stay as they were. */
  lemma LinkTouchesOneUser(db: Db, session: Option<string>, telegramId: Option<string>, file: PremiumFile, j: int)
    requires 0 <= j < |db.users| && (session.None? || db.users[j].id != session.value)
    ensures var r := Link(db, session, telegramId, file);
      |r.db.users| == |db.users| && r.db.users[j] == db.users[j]
      && r.db.resets == db.resets && r.db.questions == db.questions
  {
  }

  /** Linking the id one already holds, in any surrounding spaces, succeeds
      again and leaves the id as it is. */
  lemma RelinkOwnId(db: Db, userId: string, telegramId: string, file: PremiumFile, i: int)
    requires Wf(db) && 0 <= i < |db.users| && db.users[i].id == userId
    requires !Text.IsBlank(telegramId) && db.users[i].telegramId == Some(Text.Trim(telegramId))
    ensures var r := Link(db, Some(userId), Some(telegramId), file);
      r.status == 200 && r.db.users[i].telegramId == db.users[i].telegramId
  {
    var id := Text.Trim(telegramId);
    assert HasKey(db.users[i], Telegram(id));
    FindUnique(db.users, Telegram(id), i);
    assert HasKey(db.users[i], Id(userId));
    FindUnique(db.users, Id(userId), i);
  }
}

=== FILE: text.dfy ===
/** The string built-ins the pages and routes rely on, with the semantics of
    their ECMAScript counterparts: `trim`, `toLowerCase`, `includes`, a global
    replace of a literal pattern, and the tag-stripping regular expression the
    feed reader applies to descriptions. */
module Text {

  /** WhiteSpace or LineTerminator in the sense of ECMAScript: what
      `String.prototype.trim` removes and `parseInt` skips. */
  predicate IsWhitespace(c: char) {
    || c == ' ' || c == '\t' || c == '\n' || c == '\r'
    || c == '\U{000B}' || c == '\U{000C}' || c == '\U{00A0}' || c == '\U{FEFF}'
    || c == '\U{1680}' || ('\U{2000}' <= c <= '\U{200A}')
    || c == '\U{2028}' || c == '\U{2029}' || c == '\U{202F}' || c == '\U{205F}'
    || c == '\U{3000}'
  }

  /** Every character of `s` is whitespace (vacuously so for the empty string). */
  ghost predicate AllWhitespace(s: string) {
    forall i :: 0 <= i < |s| ==> IsWhitespace(s[i])
  }

  /** The index of the first character at or after `i` that is not
      whitespace, or `|s|` when there is none. */
  function SkipWhitespace(s: string, i: nat): (k: nat)
    requires i <= |s|
    ensures i <= k <= |s|
    ensures forall j :: i <= j < k ==> IsWhitespace(s[j])
    ensures k == |s| || !IsWhitespace(s[k])
    decreases |s| - i
  {
    if i < |s| && IsWhitespace(s[i]) then SkipWhitespace(s, i + 1) else i
  }

  /** The index just past the last character of `s[lo..j]` that is not
      whitespace, or `lo` when there is none. */
  function SkipWhitespaceBack(s: string, lo: nat, j: nat): (k: nat)
    requires lo <= j <= |s|
    ensures lo <= k <= j
    ensures forall m :: k <= m < j ==> IsWhitespace(s[m])
    ensures k == lo || !IsWhitespace(s[k - 1])
    decreases j
  {
    if lo < j && IsWhitespace(s[j - 1]) then SkipWhitespaceBack(s, lo, j - 1) else j
  }

  /** `s` with its leading whitespace removed. */
  function TrimStart(s: string): (r: string)
    ensures |r| <= |s| && r == s[|s| - |r|..]
    ensures forall j :: 0 <= j < |s| - |r| ==> IsWhitespace(s[j])
    ensures r == [] || !IsWhitespace(r[0])
  {
    s[SkipWhitespace(s, 0)..]
  }

  /** `s` with its trailing whitespace removed. */
  function TrimEnd(s: string): (r: string)
    ensures |r| <= |s| && r == s[..|r|]
    ensures forall j :: |r| <= j < |s| ==> IsWhitespace(s[j])
    ensures r == [] || !IsWhitespace(r[|r| - 1])
  {
    s[..SkipWhitespaceBack(s, 0, |s|)]
  }

  /** `r` is the block of `s` starting at `k`, and everything around it is whitespace. */
  ghost predicate TrimmedAt(s: string, k: int, r: string) {
    && 0 <= k && k + |r| <= |s|
    && r == s[k..k + |r|]
    && (forall j :: 0 <= j < k ==> IsWhitespace(s[j]))
    && (forall j :: k + |r| <= j < |s| ==> IsWhitespace(s[j]))
  }

  /** `String.prototype.trim`. */
  function Trim(s: string): (r: string)
    ensures r == [] <==> AllWhitespace(s)
    ensures r != [] ==> !IsWhitespace(r[0]) && !IsWhitespace(r[|r| - 1])
    ensures exists k :: TrimmedAt(s, k, r)
    ensures forall c :: c in r ==> c in s
  {
    var a := SkipWhitespace(s, 0);
    var b := SkipWhitespaceBack(s, a, |s|);
    assert TrimmedAt(s, a, s[a..b]);
    assert forall c :: c in s[a..b] ==> c in s;
    s[a..b]
  }

  /** Text that does not start with whitespace is its own `trimStart`. */
  lemma TrimStartNoop(s: string)
    requires s == [] || !IsWhitespace(s[0])
    ensures TrimStart(s) == s
  {
    assert SkipWhitespace(s, 0) == 0;
  }

  /** Text with no whitespace at either end is its own `trim`. */
  lemma TrimNoop(s: string)
    requires s != [] && !IsWhitespace(s[0]) && !IsWhitespace(s[|s| - 1])
    ensures Trim(s) == s
  {
    assert SkipWhitespace(s, 0) == 0;
    assert SkipWhitespaceBack(s, 0, |s|) == |s|;
  }

  /** The test `!text.trim()`: nothing but whitespace. */
  predicate IsBlank(s: string) {
    Trim(s) == []
  }

  lemma TrimIdempotent(s: string)
    ensures Trim(Trim(s)) == Trim(s)
  {
  }

  /** Upper-case letters of the Basic Latin and Latin-1 Supplement blocks. */
  predicate IsUpper(c: char) {
    ('A' <= c <= 'Z') || ('\U{00C0}' <= c <= '\U{00DE}' && c != '\U{00D7}')
  }

  /** The lower-case counterpart of an upper-case letter; other characters unchanged. */
  function LowerChar(c: char): (d: char)
    ensures !IsUpper(d)
    ensures IsUpper(c) ==> d as int == c as int + 32
    ensures !IsUpper(c) ==> d == c
  {
    if IsUpper(c) then (c as int + 32) as char else c
  }

  /** `String.prototype.toLowerCase`, restricted to Latin-1 capitals. */
  function ToLower(s: string): (r: string)
    ensures |r| == |s|
    ensures forall i :: 0 <= i < |s| ==> r[i] == LowerChar(s[i])
    ensures forall i :: 0 <= i < |r| ==> !IsUpper(r[i])
  {
    seq(|s|, i requires 0 <= i < |s| => LowerChar(s[i]))
  }

  lemma ToLowerIdempotent(s: string)
    ensures ToLower(ToLower(s)) == ToLower(s)
  {
  }

  lemma ToLowerAppend(a: string, b: string)
    ensures ToLower(a + b) == ToLower(a) + ToLower(b)
  {
  }

  /** `s.includes(p)`: `p` is a prefix of `s` or of one of its suffixes. */
  predicate Contains(s: string, p: string)
    decreases |s|
  {
    || (|p| <= |s| && s[..|p|] == p)
    || (|s| > 0 && Contains(s[1..], p))
  }

  /** `p` occurs in `s` starting at index `i`. */
  ghost predicate OccursAt(s: string, p: string, i: int) {
    0 <= i && i + |p| <= |s| && s[i..i + |p|] == p
  }

  /** An occurrence found by walking suffixes sits at a definite index. */
  lemma {:induction false} OccurrenceOfContains(s: string, p: string) returns (i: int)
    requires Contains(s, p)
    ensures OccursAt(s, p, i)
    decreases |s|
  {
    if |p| <= |s| && s[..|p|] == p {
      i := 0;
    } else {
      var j := OccurrenceOfContains(s[1..], p);
      assert s[1..][j..j + |p|] == s[j + 1..j + 1 + |p|];
      i := j + 1;
    }
  }

  /** An occurrence at any index is found by walking suffixes. */
  lemma {:induction false} ContainsOfOccurrence(s: string, p: string, i: int)
    requires OccursAt(s, p, i)
    ensures Contains(s, p)
    decreases i
  {
    if i > 0 {
      assert s[1..][i - 1..i - 1 + |p|] == s[i..i + |p|];
      ContainsOfOccurrence(s[1..], p, i - 1);
    } else {
      assert s[..|p|] == s[0..|p|];
    }
  }

  /** The suffix-walking test agrees with the positional definition of an occurrence. */
  lemma ContainsIff(s: string, p: string)
    ensures Contains(s, p) <==> exists i :: OccursAt(s, p, i)
  {
    if Contains(s, p) {
      var i := OccurrenceOfContains(s, p);
    }
    if i :| OccursAt(s, p, i) {
      ContainsOfOccurrence(s, p, i);
    }
  }

  /** A pattern holding an upper-case letter never occurs in lower-cased text. */
  lemma UpperNeverInLowered(s: string, p: string, j: int)
    requires 0 <= j < |p| && IsUpper(p[j])
    ensures !Contains(ToLower(s), p)
  {
    var t := ToLower(s);
    forall i | 0 <= i && i + |p| <= |t|
      ensures !OccursAt(t, p, i)
    {
      assert t[i..i + |p|][j] == t[i + j];
    }
    ContainsIff(t, p);
  }

  /** Lower-casing keeps whitespace whitespace and everything else not. */
  lemma LowerCharWhitespace(c: char)
    ensures IsWhitespace(LowerChar(c)) <==> IsWhitespace(c)
  {
  }

  lemma {:induction false} SkipWhitespaceLower(s: string, i: nat)
    requires i <= |s|
    ensures SkipWhitespace(ToLower(s), i) == SkipWhitespace(s, i)
    decreases |s| - i
  {
    if i < |s| {
      LowerCharWhitespace(s[i]);
      if IsWhitespace(s[i]) {
        SkipWhitespaceLower(s, i + 1);
      }
    }
  }

  lemma {:induction false} SkipWhitespaceBackLower(s: string, lo: nat, j: nat)
    requires lo <= j <= |s|
    ensures SkipWhitespaceBack(ToLower(s), lo, j) == SkipWhitespaceBack(s, lo, j)
    decreases j
  {
    if lo < j {
      LowerCharWhitespace(s[j - 1]);
      if IsWhitespace(s[j - 1]) {
        SkipWhitespaceBackLower(s, lo, j - 1);
      }
    }
  }

  /** Trimming and lower-casing commute. */
  lemma TrimLower(s: string)
    ensures Trim(ToLower(s)) == ToLower(Trim(s))
  {
    var a := SkipWhitespace(s, 0);
    var b := SkipWhitespaceBack(s, a, |s|);
    SkipWhitespaceLower(s, 0);
    SkipWhitespaceBackLower(s, a, |s|);
    assert Trim(s) == s[a..b];
    assert Trim(ToLower(s)) == ToLower(s)[a..b];
    ToLowerSlice(s, a, b);
  }

  lemma ToLowerSlice(s: string, a: int, b: int)
    requires 0 <= a <= b <= |s|
    ensures ToLower(s)[a..b] == ToLower(s[a..b])
  {
  }

  /** A pattern without whitespace occurs in the trimmed text exactly when it
      occurs in the text. */
  lemma ContainsTrimmed(s: string, p: string)
    requires p != [] && forall j :: 0 <= j < |p| ==> !IsWhitespace(p[j])
    ensures Contains(Trim(s), p) <==> Contains(s, p)
  {
    var r := Trim(s);
    var k :| TrimmedAt(s, k, r);
    ContainsIff(r, p);
    ContainsIff(s, p);
    if i :| OccursAt(r, p, i) {
      OccursInBlock(s, k, r, p, i);
    }
    if i :| OccursAt(s, p, i) {
      OccursInTrimmed(s, k, r, p, i);
    }
  }

  lemma OccursInBlock(s: string, k: int, r: string, p: string, i: int)
    requires TrimmedAt(s, k, r) && OccursAt(r, p, i)
    ensures OccursAt(s, p, k + i)
  {
    assert forall t :: 0 <= t < |r| ==> r[t] == s[k + t];
    assert s[k + i..k + i + |p|] == r[i..i + |p|];
  }

  lemma OccursInTrimmed(s: string, k: int, r: string, p: string, i: int)
    requires TrimmedAt(s, k, r) && OccursAt(s, p, i)
    requires p != [] && forall j :: 0 <= j < |p| ==> !IsWhitespace(p[j])
    ensures OccursAt(r, p, i - k)
  {
    assert s[i..i + |p|][0] == p[0];
    assert s[i..i + |p|][|p| - 1] == p[|p| - 1];
    assert !IsWhitespace(s[i]) && !IsWhitespace(s[i + |p| - 1]);
    assert k <= i;
    assert i + |p| <= k + |r|;
    assert forall t :: 0 <= t < |r| ==> r[t] == s[k + t];
  }

  /** `s.replace(/pat/g, rep)` for a literal, non-empty `pat`: occurrences are
      replaced left to right without overlapping. */
  function ReplaceAll(s: string, pat: string, rep: string): (r: string)
    requires pat != []
    ensures !Contains(s, pat) ==> r == s
    ensures forall c :: c in r ==> c in s || c in rep
    decreases |s|
  {
    if |s| == 0 then []
    else if |pat| <= |s| && s[..|pat|] == pat then
      var tail := ReplaceAll(s[|pat|..], pat, rep);
      assert forall c :: c in s[|pat|..] ==> c in s;
      rep + tail
    else
      var tail := ReplaceAll(s[1..], pat, rep);
      assert s == [s[0]] + s[1..];
      [s[0]] + tail
  }

  /** `pat` does not occur in `s` before index `k`. */
  ghost predicate NoOccurrenceBefore(s: string, pat: string, k: int) {
    forall i :: 0 <= i < k ==> !OccursAt(s, pat, i)
  }

  /** No occurrence can start where the first character of `pat` is absent. */
  lemma NoOccurrenceBeforeByChar(s: string, pat: string, k: int)
    requires pat != [] && k <= |s|
    requires forall i :: 0 <= i < k ==> s[i] != pat[0]
    ensures NoOccurrenceBefore(s, pat, k)
  {
    forall i | 0 <= i < k
      ensures !OccursAt(s, pat, i)
    {
      if i + |pat| <= |s| {
        assert s[i..i + |pat|][0] == s[i];
      }
    }
  }

  /** Moving past a first character that starts no occurrence. */
  lemma NoOccurrenceBeforeTail(s: string, pat: string, k: int)
    requires |s| > 0 && 1 <= k && NoOccurrenceBefore(s, pat, k)
    ensures NoOccurrenceBefore(s[1..], pat, k - 1)
    ensures !(|pat| <= |s| && s[..|pat|] == pat)
  {
    forall i | 0 <= i < k - 1
      ensures !OccursAt(s[1..], pat, i)
    {
      if OccursAt(s[1..], pat, i) {
        assert s[1..][i..i + |pat|] == s[i + 1..i + 1 + |pat|];
        assert OccursAt(s, pat, i + 1);
      }
    }
    assert !OccursAt(s, pat, 0);
  }

  /** Where `pat` first occurs at `|a|`, the text before it is kept, that
      occurrence becomes `rep`, and the replacing goes on after it. */
  lemma {:induction false} ReplaceAllAt(a: string, pat: string, b: string, rep: string)
    requires pat != []
    requires NoOccurrenceBefore(a + pat + b, pat, |a|)
    ensures ReplaceAll(a + pat + b, pat, rep) == a + rep + ReplaceAll(b, pat, rep)
    decreases |a|
  {
    var s := a + pat + b;
    if a == [] {
      assert s == pat + b;
      assert s[..|pat|] == pat;
      assert s[|pat|..] == b;
    } else {
      NoOccurrenceBeforeTail(s, pat, |a|);
      assert s[1..] == a[1..] + pat + b;
      ReplaceAllAt(a[1..], pat, b, rep);
      assert s[0] == a[0];
      assert a == [a[0]] + a[1..];
    }
  }

  /** Where `pat` first occurs at `|a|`, only that occurrence is replaced. */
  lemma {:induction false} ReplaceFirstAt(a: string, pat: string, b: string, rep: string)
    requires pat != []
    requires NoOccurrenceBefore(a + pat + b, pat, |a|)
    ensures ReplaceFirst(a + pat + b, pat, rep) == a + rep + b
    decreases |a|
  {
    var s := a + pat + b;
    if a == [] {
      assert s == pat + b;
      assert s[..|pat|] == pat;
      assert s[|pat|..] == b;
    } else {
      NoOccurrenceBeforeTail(s, pat, |a|);
      assert s[1..] == a[1..] + pat + b;
      ReplaceFirstAt(a[1..], pat, b, rep);
      assert s[0] == a[0];
      assert a == [a[0]] + a[1..];
    }
  }

  /** A pattern whose first character is absent does not occur. */
  lemma {:induction false} NotContainsHead(s: string, p: string)
    requires p != [] && p[0] !in s
    ensures !Contains(s, p)
    decreases |s|
  {
    if |s| > 0 {
      assert forall c :: c in s[1..] ==> c in s;
      NotContainsHead(s[1..], p);
      assert |p| <= |s| ==> s[..|p|][0] == s[0] != p[0];
    }
  }

  /** A text that starts with the pattern and holds no other occurrence has
      just that one replaced. */
  lemma ReplaceAllLeading(pat: string, b: string, rep: string)
    requires pat != [] && pat[0] !in b
    ensures ReplaceAll(pat + b, pat, rep) == rep + b
  {
    var s := pat + b;
    assert s[..|pat|] == pat && s[|pat|..] == b;
    NotContainsHead(b, pat);
  }

  /** A pattern whose first character occurs nowhere else in the text is
      replaced where it stands, and nothing else changes. */
  lemma ReplaceAllSingle(a: string, pat: string, b: string, rep: string)
    requires pat != [] && pat[0] !in a && pat[0] !in b
    ensures ReplaceAll(a + pat + b, pat, rep) == a + rep + b
  {
    var s := a + pat + b;
    assert forall i :: 0 <= i < |a| ==> s[i] == a[i];
    NoOccurrenceBeforeByChar(s, pat, |a|);
    ReplaceAllAt(a, pat, b, rep);
    NotContainsHead(b, pat);
  }

  /** `s.replace(pat, rep)` for a literal `pat`: only the first occurrence is
      replaced. */
  function ReplaceFirst(s: string, pat: string, rep: string): (r: string)
    ensures !Contains(s, pat) ==> r == s
    decreases |s|
  {
    if |pat| <= |s| && s[..|pat|] == pat then rep + s[|pat|..]
    else if |s| == 0 then s
    else [s[0]] + ReplaceFirst(s[1..], pat, rep)
  }

  lemma ReplaceFirstAtStart(pat: string, rest: string, rep: string)
    ensures ReplaceFirst(pat + rest, pat, rep) == rep + rest
  {
    assert (pat + rest)[..|pat|] == pat;
    assert (pat + rest)[|pat|..] == rest;
  }

  /** What follows the first `>` of `s`, or nothing when `s` holds no `>`. */
  function SkipTag(s: string): (r: string)
    ensures |r| < |s| || r == s == []
    ensures r == s[|s| - |r|..]
  {
    if |s| == 0 then []
    else if s[0] == '>' then s[1..]
    else SkipTag(s[1..])
  }

  /** `s.replace(/<[^>]*>?/gm, '')`: every `<` starts a tag that runs up to and
      including the next `>`, or to the end of the text when none follows. */
  function StripTags(s: string): (r: string)
    ensures '<' !in r
    ensures '<' !in s ==> r == s
    ensures forall c :: c in r ==> c in s
    decreases |s|
  {
    if |s| == 0 then []
    else if s[0] == '<' then
      var rest := SkipTag(s[1..]);
      assert forall c :: c in rest ==> c in s[1..];
      StripTags(rest)
    else
      assert s == [s[0]] + s[1..];
      [s[0]] + StripTags(s[1..])
  }

  /** A tag-free prefix survives, and the stripping carries on after it. */
  lemma {:induction false} StripTagsPlain(a: string, x: string)
    requires '<' !in a
    ensures StripTags(a + x) == a + StripTags(x)
    decreases |a|
  {
    if a != [] {
      var s := a + x;
      assert s[0] == a[0] && s[1..] == a[1..] + x;
      StripTagsPlain(a[1..], x);
      assert a == [a[0]] + a[1..];
    } else {
      assert a + x == x;
    }
  }

  /** `SkipTag` stops at the first `>`. */
  lemma {:induction false} SkipTagPast(t: string, b: string)
    requires '>' !in t
    ensures SkipTag(t + ">" + b) == b
    decreases |t|
  {
    var s := t + ">" + b;
    if t == [] {
      assert s == ">" + b && s[1..] == b;
    } else {
      assert s[0] == t[0] && s[1..] == t[1..] + ">" + b;
      SkipTagPast(t[1..], b);
    }
  }

  /** Without a `>`, `SkipTag` consumes everything. */
  lemma {:induction false} SkipTagNone(t: string)
    requires '>' !in t
    ensures SkipTag(t) == []
    decreases |t|
  {
    if t != [] {
      assert t[0] in t;
      SkipTagNone(t[1..]);
    }
  }

  /** A tag at the front is removed together with its text. */
  lemma StripTagsAtTag(t: string, b: string)
    requires '>' !in t
    ensures StripTags("<" + t + ">" + b) == StripTags(b)
  {
    var x := "<" + t + ">" + b;
    assert x[0] == '<';
    assert x[1..] == t + ">" + b;
    SkipTagPast(t, b);
  }

  /** A tag is removed together with its text; what precedes it is kept and
      what follows is stripped in turn. */
  lemma StripTagsTag(a: string, t: string, b: string)
    requires '<' !in a && '>' !in t
    ensures StripTags(a + "<" + t + ">" + b) == a + StripTags(b)
  {
    var x := "<" + t + ">" + b;
    assert a + "<" + t + ">" + b == a + x;
    StripTagsPlain(a, x);
    StripTagsAtTag(t, b);
  }

  /** A `<` with no `>` after it removes the rest of the text. */
  lemma StripTagsOpen(a: string, t: string)
    requires '<' !in a && '>' !in t
    ensures StripTags(a + "<" + t) == a
  {
    var x := "<" + t;
    assert a + "<" + t == a + x;
    StripTagsPlain(a, x);
    assert x[1..] == t;
    SkipTagNone(t);
    assert a + [] == a;
  }
}

=== FILE: wrappers.dfy ===
/** Optional values: a JSON field that may be absent, a lookup that may miss. */
module Wrappers {

  datatype Option<+T> = None | Some(value: T) {

    /** The wrapped value, or `default` when there is none. */
    function GetOr(default: T): T {
      match this
      case Some(v) => v
      case None => default
    }
  }
}
